=== FILE: README.md ===
# Google Classroom course provisioning: a Dafny model

Two Python scripts provision Google Classroom courses for a university from
CSV files. `classroomManagement.py` is the current one and `createCourse.py`
is its older sibling. Each script:

- reads a class file (`classCode, subject, teacherId, section`);
- reads a user directory (`userId, email`): `users.csv` for the current
  script, `students.csv` for the older one;
- reads an enrollment file (`classCode, userId`, one row per member);
- reads the course registry `coursesID.csv` (`classCode, courseId, ...`);
- then, depending on the command (`all`, `create`, `enroll`, `remove`,
  `lists`, `info`), creates courses and appends them to the registry,
  enrolls members, deletes courses, or writes a course report.

The model is purely functional:

- `Csv`: line splitting. `PyDict`: insertion-ordered dicts.
- `Roster`: the table loaders of `readData`.
- `Remote`: the service as an oracle, and the status-code classification of
  every API wrapper. A run is a trace of events: requests issued, registry
  rows appended, report files written. It ends `Completed` or
  `Crashed(failure)`.
- `Cli`: both `parseOptions`.
- `Listing`: the course report.
- `Plan`: the parts of the per-class loop the two scripts share.
- `Management` and `CreateCourse`: one module per script's `__main__`.

Defects that have an evident fix are modelled in both forms through
`Variant = AsWritten | Intended`. The rest of the model uses the intended
form, and the `AsWritten` form is exhibited by a lemma (see "## Findings").

Facts about the scripts that the model keeps:

- The class, user and registry loaders let the last line with a given key
  win. The enrollment loader keeps every line, grouped per class in file
  order.
- Comment lines and blank lines are not skipped. A blank line has too few
  fields, so loading fails on it with `ShortLine`.
- A dry run of `remove` with at least one course never builds the service
  object, so the first deletion raises `NameError`. The usage text offers
  no `--dry-run` for `lists` and `info`. docopt rejects such command lines
  before `parseOptions` runs.
- There is no `archive`, `unenroll`, `crawl` or `get-stream` command in
  either script.

## Model

| member | source | states |
|---|---|---|
| Csv.StripNewline | classroomManagement.py:155 | `rstrip("\n")` keeps a prefix of the line, removes only newlines, and leaves no trailing newline |
| Csv.Split | classroomManagement.py:155 | `split(",")` yields one more field than the line has commas, and no field contains a comma |
| Csv.JoinSplit | classroomManagement.py:155 | joining the split fields with the separator gives back the original line, so splitting loses nothing |
| Csv.SplitJoin | classroomManagement.py:155 | splitting the join of separator-free fields gives back exactly those fields |
| PyDict.Set | classroomManagement.py:156-158 | dict assignment overwrites the key's value and keeps every key listed once |
| PyDict.SetKeys | classroomManagement.py:154-158 | after the assignments of a loop, the key order is the order in which each key first occurred |
| Roster.LoadLastWins | classroomManagement.py:150-158 | loading succeeds iff every line has enough fields; otherwise it fails with the file and index of the first short line; keys are the distinct first fields in first-occurrence order; createCourse.py:140-156 loads its tables with the same loop |
| Roster.LastWriteWins | classroomManagement.py:154-158 | the value held for a class code is the one built from the last line carrying that code |
| Roster.MembersOf | classroomManagement.py:175 | a class has members iff some enrollment line names it |
| Roster.GroupRows | classroomManagement.py:170-175 | each class code maps to its user ids in file order with duplicates kept; a line without a second field is an error; createCourse.py:160-165 groups the same way |
| Roster.GroupKeepsEveryRow | classroomManagement.py:170-175 | the lengths of all member lists add up to the number of enrollment lines |
| Roster.RegistryIgnoresExtraColumns | classroomManagement.py:179-183 | cutting every registry line down to its first two fields changes nothing that is loaded |
| Roster.ReadData | classroomManagement.py:138-183 | the four tables load iff every file exists and has lines with enough fields; otherwise the failure is that of the first file, in the order class, user, enrollment, registry, that is missing or has a short line, and it names that file and its first short line; each table's keys follow its file's first-occurrence order; each class's enrollment list is its members in file order |
| Roster.ReadDataLastWins | classroomManagement.py:150-183 | in the class, user and registry tables, every key holds the value built from the last line of its file carrying that key |
| Remote.UnguardedOutcome | classroomManagement.py:201-208 | adding the admin teacher has no handler, so every error status is fatal with that code |
| Remote.TeardownOutcome | classroomManagement.py:212-235 | deleting the admin teacher or a course: 404 is benign, success is done, every other code is re-raised; the same holds for createCourse.py:201-223 |
| Remote.InvitationOutcome | classroomManagement.py:257-269 | an invitation answered 409 is benign; every other error code is re-raised; `enrollStudent` in createCourse.py:233-243 does the same |
| Remote.DirectEnrollOutcome | classroomManagement.py:317-329 | a direct enrollment answered 403 is benign, and so is 409 once fixed; as written a 409 is fatal, and the failure is AttributeError; every other code is re-raised with that code; `enrollStudent2` in createCourse.py:287-296 has the same handler and defect |
| Remote.ClassifyFollowsPolicy | classroomManagement.py:212-329 | once fixed, every wrapper treats a status as fatal iff it is outside its tolerated set (none, 404, 409, 403/409) |
| Remote.FanOut | classroomManagement.py:252-254 | the pool's work list is issued in order; a completed run issued every item, and a crashed one issued a non-empty prefix |
| Remote.FanOutSurvivors | classroomManagement.py:285-287 | every issued item, at any index, got a status its wrapper tolerates from the history before it, except the last item of a crashed run |
| Remote.FanOutCrash | classroomManagement.py:252-254 | a crashed fan-out's failure is the classification of its last request |
| Remote.NonFatalBatchCompletes | classroomManagement.py:252-254 | a batch whose answers are never fatal for its wrapper, whatever came before, issues every request in order and completes |
| Remote.ToleratedBatchCompletes | classroomManagement.py:257-269 | a batch in which each request answers success or a code its wrapper tolerates, in any mix (e.g. re-running an enrollment where some users are already members, 409), issues every request and completes; this holds for direct enrollment only once fixed |
| Remote.AsWrittenConflictCrashes | classroomManagement.py:317-324 | as written, a direct enrollment batch whose request k answers 409, after k earlier requests that were not fatal, issues exactly the first k+1 requests and dies with AttributeError |
| Cli.KeepTruthy | classroomManagement.py:55-56 | an optional file argument is kept iff it is present and non-empty |
| Cli.ParseManagement | classroomManagement.py:46-78 | each command selects its own mode, and `all` selects default; a class or enrollment file override holds the argument given; the output file is set only by `lists` and the course id only by `info`, each to its argument; the teacher role and foreign domain are set only by `enroll` and its flags; the file overrides are set only by their command and only when non-empty; only `remove` carries courses; dry-run is the flag |
| Cli.ParseCreateCourse | createCourse.py:38-66 | each command selects its own mode and `all` selects default; the class file override is set only by `create` and the enrollment file override only by `enroll`, each only when non-empty and to the argument given; once fixed, `remove` and no other command carries its courses, `lists` carries its output file and `info` its course id; dry-run is the flag; there are no role or domain flags; as written `remove` fails with KeyError('courses'), and that is the only failure |
| Cli.ParsersAgree | createCourse.py:44-66 | with the key fixed, createCourse.py parses like classroomManagement.py without the role and domain flags |
| Cli.ModesDistinct | classroomManagement.py:53-75 | different commands select different modes |
| Listing.LStripStrips | classroomManagement.py:388 | `lstrip("/")` keeps a suffix, removes only slashes, and leaves no leading slash |
| Listing.TeacherNamesJoin | classroomManagement.py:379-388 | the teacher column equals the names joined by "/" when the first name is non-empty and does not start with "/" |
| Listing.TeacherNamesRoundTrip | classroomManagement.py:378-388 | splitting the teacher column on "/" recovers the teacher names when they contain no "/" and the first is non-empty |
| Listing.CourseRow | classroomManagement.py:382-390 | every report row has exactly the header's 7 columns: name, section, id, enrollment code (under "classCode"), owner, teacher column and state, with a missing field written empty |
| Listing.CollectRows | classroomManagement.py:357-368 | the rows are collected iff every teacher lookup answers; row i describes course i; otherwise the code of the first refused lookup is raised |
| Listing.ListManagement | classroomManagement.py:332-370 | a refused course listing raises its code with no file; an empty course list writes no file; as written no report is ever written; once fixed, a non-empty list writes a report that completes iff every teacher lookup answers, and otherwise holds only the header and raises the first refused lookup's code |
| Listing.ListingOneRowPerCourse | classroomManagement.py:342-370 | once fixed, the report is the header followed by one row per course, in course order |
| Listing.ListingAsWrittenFails | classroomManagement.py:339-340 | as written, any non-empty course list ends in NameError('totalProcess') with no report |
| Listing.WriteRows | createCourse.py:313-318 | row i written is course i's row with its first teacher, in course order after the rows already written; the loop completes iff every course has a teacher; otherwise it stops at the first course without one, raising the lookup's code or IndexError |
| Listing.ListCreateCourse | createCourse.py:299-318 | a refused course listing raises its code with no file; an empty one writes none; otherwise the report is the header and then one first-teacher row per course in order; it completes iff every course has a teacher, and then holds all 1 + n rows; otherwise it stops at the first course without a teacher, raising the lookup's code or IndexError |
| Listing.ListingsAgree | createCourse.py:299-318 | when every course has exactly one teacher, both scripts write the same report |
| Listing.WriteRowsAgree | createCourse.py:313-318 | the first-teacher rows equal the joined-teacher rows for single-teacher courses |
| Plan.Lookup | classroomManagement.py:439-442 | the loop head succeeds iff the code is in both the class table and the registry, and otherwise raises KeyError(code); an empty registry id becomes 0 |
| Plan.CreatePhaseShape | classroomManagement.py:450-457 | a live create issues the creation request, then appends exactly `[code, id, subject(code), teacher@domain, enrollCode]` and continues with the new id; if the request fails, nothing is appended |
| Plan.BuildCalls | classroomManagement.py:241-251 | the work list is built iff every user has an address; it has one item per user, in order; otherwise the first unknown user raises KeyError |
| Plan.Removal | classroomManagement.py:423-428 | `remove` issues deletions of the given courses in argument order, never more than given; a completed run deleted each one; no courses means nothing to do; a dry run with courses raises NameError because the service was never built |
| Plan.Information | classroomManagement.py:432-435 | a live `info` issues exactly one course lookup for the given id; it completes iff the service answers, and otherwise raises the answer's code (classroomManagement.py:393-395) |
| Plan.LoopPassedEach | classroomManagement.py:438-442 | a completed class loop passed every code it visited through a step that only completes on codes meeting a condition |
| Plan.DryDispatch | classroomManagement.py:414-435 | with `--dry-run`, and a class step that issues nothing, no command of either script issues a request or writes a file; createCourse.py:348-367 dispatches the same way |
| Plan.RemovalToleratesMissing | classroomManagement.py:423-428 | removing courses that are gone (404) or removable deletes each listed course, in order, and completes |
| Management.MemberCallsOnePerRow | classroomManagement.py:239-284 | one work item per enrollment row, in order, carrying the registry course id and the row's address; invitations carry role TEACHER iff the teacher option is set; direct creations target teachers iff it is set |
| Management.MembersBuildListFirst | classroomManagement.py:239-287 | when user j is the first enrollment row without an address, building the work list raises KeyError for that user before any request |
| Management.EnrollPhaseShape | classroomManagement.py:461-483 | a class with no enrollment rows gets no actions; otherwise the admin add precedes and the admin delete follows the member fan-out exactly when foreign-domain is set and the teacher is not the admin |
| Management.AdminKeptWhenFanOutRaises | classroomManagement.py:470-483 | when the member fan-out raises, the admin account is never removed |
| Management.PlanClassExtends | classroomManagement.py:438-483 | one pass of the class loop only appends to the trace; a class missing from the class table or the registry raises KeyError(code) and appends nothing |
| Management.EnrollPhaseExtends | classroomManagement.py:461-483 | the enrollment phase only appends to the trace |
| Management.ExecuteDispatch | classroomManagement.py:421-435 | `info` issues the one lookup for its course id, `remove` only deletions of its courses in order, and `lists` only writes the report |
| Management.SessionDispatch | classroomManagement.py:404-435 | a data file that fails to load ends the session before anything else; after loading, each command does its own work on the parsed arguments as above |
| Management.CompletedLoopFoundEveryClass | classroomManagement.py:419-442 | a completed create, enroll or all run found every visited class in both the class table and the registry: under create and all every class is registered, under enroll every registered class is in the class table |
| Management.DryRunIssuesNothing | classroomManagement.py:414-420 | with `--dry-run` no request is issued, no registry row is appended and no report is written, whatever the command |
| Management.PlanClassRegisters | classroomManagement.py:443-457 | a completed live pass over one class appends exactly that class's registry row |
| Management.LoopRegisters | classroomManagement.py:438-457 | a completed live create loop appends one registry row per visited class, in visiting order |
| Management.CreateRegistersEachClass | classroomManagement.py:421-457 | a completed live create run appends exactly one registry row per class of the class table, in the table's key order, and no other row |
| Management.UnregisteredClassStopsCreate | classroomManagement.py:442 | a create run whose first class has no registry row raises KeyError before issuing anything |
| CreateCourse.EnrollEachIsFanOut | createCourse.py:398-403 | once fixed, the per-student loop is the in-order sequence of STUDENT invitations, one per enrollment row |
| CreateCourse.AddressesKnown | createCourse.py:398-399 | a completed per-student loop found an address for every student |
| CreateCourse.StudentsBracketed | createCourse.py:394-405 | once fixed, a completed live enroll of a class issues the admin add, one invitation per row in file order, then the admin delete; the add and delete happen exactly when the teacher is not the admin, and no foreign-domain flag is involved |
| CreateCourse.IntendedCreatesAndRegisters | createCourse.py:382-387 | once fixed, a completed live create of a class issues its creation request and appends its registry row, and nothing else |
| CreateCourse.EnrollEachExtends | createCourse.py:398-403 | the per-student loop only appends to the trace |
| CreateCourse.PlanClassExtends | createCourse.py:370-405 | one pass of the class loop only appends to the trace; a class missing from the class table or the registry raises KeyError(code) and appends nothing |
| CreateCourse.ExecuteDispatch | createCourse.py:355-367 | `info` issues the one lookup for its course id, `remove` only deletions of its courses in order, and `lists` only writes the report |
| CreateCourse.SessionDispatch | createCourse.py:334-367 | a parse failure ends the session first, then a data file that fails to load; after loading, each command does its own work on the parsed arguments |
| CreateCourse.DryRunIssuesNothing | createCourse.py:348-354 | with `--dry-run`, createCourse.py issues no request and appends no row in either variant |
| CreateCourse.AsWrittenNeverCreatesOrEnrolls | createCourse.py:370-405 | as written, a create, enroll or all run never creates a course and never invites a student |
| CreateCourse.AsWrittenRemoveRaises | createCourse.py:53-55 | as written, `remove` raises KeyError('courses') before any file is read or request is issued |

## Left out

- OAuth token caching, the interactive consent flow and `build(...)` (classroomManagement.py:81-135, createCourse.py:69-125): this is credential I/O in a foreign library. A live run is assumed to have its service objects.
- The request building inside `googleapiclient`: the service is an oracle. It maps the history and a request to a status, and a creation to the new course's id and enrollment code.
- `multiprocessing.Pool`, `istarmap` and `tqdm`: the fan-out is sequential in work-list order. Under the fork start method the pool only changes scheduling, and `istarmap` returns results in order. The model assumes fork: under spawn or forkserver a worker re-imports the script without running `__main__`, so `serviceEnrollment` and `options` are unbound there, and every live member fan-out and listing would raise NameError on its first item. An exception in a worker surfaces from the pool and ends the run; requests other workers issued concurrently are not modelled.
- docopt itself: its result is the `Args` record. The model does not reject argument combinations the usage text rules out, such as `lists --dry-run` or `info --dry-run`. For those, `Plan.Information` and `Plan.ListingRun` return a `NameError` crash that the scripts never reach.
- configparser: the admin account from `config.ini` is a parameter.
- File I/O: reading is a function from file names to lines. Opening the registry for append and writing the report cannot fail in the model. All `print` output is left out.
- Neither script pages through `courses().list(pageSize=0)` or `teachers().list` (classroomManagement.py:333,375; createCourse.py:300,314). Each reads the first page only, and the model reads one oracle answer per listing, as the scripts do.
- The listing's `courses().list` and `teachers().list` requests are read-only and are not traced: `Listing.ListingApi` answers them, and only the report they produce enters the trace. `info`'s `courses().get` is traced as a request.
- `infoClassroom`: modelled only as one unguarded `courses().get` request. What it prints is left out.
- `enrollStudent3` (createCourse.py:246-265): the loop never calls it.
- `enrollStudent2` (createCourse.py:273-296): the loop never calls it, so only its classification is modelled.
- The success paths of `createUsersProc` and `enrollStudent2` read `.get("profile")` from the service's answer. The model assumes that answer is well formed.
- Remote.FanOut: after a fatal answer the model issues nothing more, so its trace is exactly a prefix of the work list. The real pool may already have issued later items, so the model's trace under-approximates what the pool issued.

## Kept as written

Two KeyErrors in the main loop have no single evident fix, so the model keeps them as written:

- Line 442 of classroomManagement.py reads `courseLists[classCode]` before it creates anything. A `create` or `all` run therefore raises KeyError on the first class that is not yet in `coursesID.csv`, which is exactly the class it means to create. `Management.UnregisteredClassStopsCreate` states this.
- Line 439 reads the class table for every registry code, so in `enroll` mode a registry code that is missing from the class file raises KeyError. `Plan.Lookup` states both conditions.

## Findings

| source | as written | input that shows it | evidently intended | confidence | as-written member | corrected member |
|---|---|---|---|---|---|---|
| createCourse.py:382 | `if not option['dry-run']` reads the undefined name `option` | `create` with a class present in the class file and the registry | `options['dry-run']` | not executed | CreateCourse.AsWrittenNeverCreatesOrEnrolls | CreateCourse.IntendedCreatesAndRegisters |
| createCourse.py:401 | `if not option['dry-run']` reads the undefined name `option` | `enroll` with one enrollment row whose student has an address | `options['dry-run']` | not executed | CreateCourse.AsWrittenNeverCreatesOrEnrolls | CreateCourse.StudentsBracketed |
| createCourse.py:55 | `args['courses']`, a key docopt never produces | `remove 123` | `args['<courses>']` | not executed | CreateCourse.AsWrittenRemoveRaises | Cli.ParsersAgree |
| classroomManagement.py:340 | prints the undefined name `totalProcess` | `lists out.csv` when the service lists one course | `totalCourses` | not executed | Listing.ListingAsWrittenFails | Listing.ListingOneRowPerCourse |
| classroomManagement.py:322 | the 409 message reads `.get("profile")` from the request body `{"userId": ...}`, gets None, and the next `.get` raises AttributeError | `enroll` without `--foreign-domain` when one user is already a student (409) | report the already-enrolled user by `user["userId"]` and carry on | not executed | Remote.AsWrittenConflictCrashes | Remote.ToleratedBatchCompletes |

=== FILE: cli.dfy ===
/** `parseOptions` of both scripts: the docopt result becomes an execution
    mode and an options record. Keys the scripts only set under a condition
    are `None` / `false` here when absent. */
module Cli {
  import opened Common

  datatype Command = AllCmd | CreateCmd | EnrollCmd | RemoveCmd | ListsCmd | InfoCmd

  /** What docopt returns: the command given, the positional arguments
      (`None` when omitted) and the flags. */
  datatype Args = Args(
    command: Command,
    classFile: Option<string>,
    enrollFile: Option<string>,
    courses: seq<string>,
    outputCsv: string,
    courseId: string,
    dryRun: bool,
    teacher: bool,
    foreignDomain: bool)

  /** `all` runs as mode "default". */
  datatype Mode = Default | Create | Enroll | Remove | Lists | Info

  datatype Options = Options(
    classFile: Option<string>,
    enrollFile: Option<string>,
    teacherRole: bool,
    foreignDomain: bool,
    courses: Option<seq<string>>,
    outputCsv: Option<string>,
    courseId: Option<string>,
    dryRun: bool)

  /** Python truthiness of an optional string argument. */
  predicate Truthy(o: Option<string>) {
    o.Some? && o.value != ""
  }

  function KeepTruthy(o: Option<string>): (r: Option<string>)
    ensures r.Some? <==> Truthy(o)
    ensures r.Some? ==> r == o
  {
    if Truthy(o) then o else None
  }

  function NoOptions(dryRun: bool): Options {
    Options(None, None, false, false, None, None, None, dryRun)
  }

  /** classroomManagement.py's `parseOptions`. */
  function ParseManagement(args: Args): (r: (Mode, Options))
    ensures r.1.dryRun == args.dryRun
    ensures r.0 == Default <==> args.command == AllCmd
    ensures r.0 == Create <==> args.command == CreateCmd
    ensures r.0 == Enroll <==> args.command == EnrollCmd
    ensures r.0 == Remove <==> args.command == RemoveCmd
    ensures r.0 == Lists <==> args.command == ListsCmd
    ensures r.0 == Info <==> args.command == InfoCmd
    ensures r.1.teacherRole <==> args.command == EnrollCmd && args.teacher
    ensures r.1.foreignDomain <==> args.command == EnrollCmd && args.foreignDomain
    ensures r.1.classFile.Some? <==> args.command == CreateCmd && Truthy(args.classFile)
    ensures r.1.enrollFile.Some? <==> args.command == EnrollCmd && Truthy(args.enrollFile)
    ensures r.1.classFile.Some? ==> r.1.classFile == args.classFile
    ensures r.1.enrollFile.Some? ==> r.1.enrollFile == args.enrollFile
    ensures r.1.courses.Some? <==> r.0 == Remove
    ensures r.0 == Remove ==> r.1.courses == Some(args.courses)
    ensures r.1.outputCsv.Some? <==> r.0 == Lists
    ensures r.0 == Lists ==> r.1.outputCsv == Some(args.outputCsv)
    ensures r.1.courseId.Some? <==> r.0 == Info
    ensures r.0 == Info ==> r.1.courseId == Some(args.courseId)
  {
    var base := NoOptions(args.dryRun);
    match args.command
    case CreateCmd => (Create, base.(classFile := KeepTruthy(args.classFile)))
    case EnrollCmd =>
      (Enroll, base.(teacherRole := args.teacher, foreignDomain := args.foreignDomain,
                     enrollFile := KeepTruthy(args.enrollFile)))
    case RemoveCmd => (Remove, base.(courses := Some(args.courses)))
    case ListsCmd => (Lists, base.(outputCsv := Some(args.outputCsv)))
    case InfoCmd => (Info, base.(courseId := Some(args.courseId)))
    case AllCmd => (Default, base)
  }

  /** createCourse.py's `parseOptions`. It has no role or domain flags, and
      as written its `remove` branch reads `args['courses']`, a key docopt
      never produces (docopt's key is `<courses>`), so it raises KeyError. */
  function ParseCreateCourse(v: Variant, args: Args): (r: Result<(Mode, Options)>)
    ensures r.Err? <==> v == AsWritten && args.command == RemoveCmd
    ensures r.Err? ==> r.failure == KeyError("courses")
    ensures r.Ok? ==> !r.value.1.teacherRole && !r.value.1.foreignDomain
    ensures r.Ok? ==> r.value.1.dryRun == args.dryRun
    ensures r.Ok? ==> (r.value.0 == Default <==> args.command == AllCmd)
    ensures r.Ok? ==> (r.value.0 == Create <==> args.command == CreateCmd)
    ensures r.Ok? ==> (r.value.0 == Enroll <==> args.command == EnrollCmd)
    ensures r.Ok? ==> (r.value.0 == Remove <==> args.command == RemoveCmd)
    ensures r.Ok? ==> (r.value.0 == Lists <==> args.command == ListsCmd)
    ensures r.Ok? ==> (r.value.0 == Info <==> args.command == InfoCmd)
    ensures r.Ok? ==> (r.value.1.classFile.Some? <==> args.command == CreateCmd && Truthy(args.classFile))
    ensures r.Ok? ==> (r.value.1.enrollFile.Some? <==> args.command == EnrollCmd && Truthy(args.enrollFile))
    ensures r.Ok? && r.value.1.classFile.Some? ==> r.value.1.classFile == args.classFile
    ensures r.Ok? && r.value.1.enrollFile.Some? ==> r.value.1.enrollFile == args.enrollFile
    ensures r.Ok? ==> (r.value.1.courses.Some? <==> r.value.0 == Remove)
    ensures r.Ok? && r.value.0 == Remove ==> r.value.1.courses == Some(args.courses)
    ensures r.Ok? && r.value.0 == Lists ==> r.value.1.outputCsv == Some(args.outputCsv)
    ensures r.Ok? && r.value.0 == Info ==> r.value.1.courseId == Some(args.courseId)
  {
    var base := NoOptions(args.dryRun);
    match args.command
    case CreateCmd => Ok((Create, base.(classFile := KeepTruthy(args.classFile))))
    case EnrollCmd => Ok((Enroll, base.(enrollFile := KeepTruthy(args.enrollFile))))
    case RemoveCmd =>
      (match v
       case AsWritten => Err(KeyError("courses"))
       case Intended => Ok((Remove, base.(courses := Some(args.courses)))))
    case ListsCmd => Ok((Lists, base.(outputCsv := Some(args.outputCsv))))
    case InfoCmd => Ok((Info, base.(courseId := Some(args.courseId))))
    case AllCmd => Ok((Default, base))
  }

  /** With the key fixed, createCourse.py parses exactly as
      classroomManagement.py does for a command line without the role and
      domain flags. */
  lemma ParsersAgree(args: Args)
    ensures ParseCreateCourse(Intended, args) == Ok(ParseManagement(args.(teacher := false, foreignDomain := false)))
  {
  }

  /** Every command selects its own mode. */
  lemma ModesDistinct(a: Args, b: Args)
    requires a.command != b.command
    ensures ParseManagement(a).0 != ParseManagement(b).0
  {
  }
}

=== FILE: common.dfy ===
/** Values shared by every part of the model: optional values, the Python
    exceptions that end a run, and the way a run ends. */
module Common {

  datatype Option<+T> = None | Some(value: T) {
    function GetOr(default: T): T {
      match this
      case Some(v) => v
      case None => default
    }
  }

  /** The uncaught Python exception that ends a run of either script. */
  datatype Failure =
    | ShortLine(file: string, row: nat)   // IndexError: a CSV line with too few fields
    | NoTeacher                           // IndexError: `teachers[0]` of an empty list
    | FileMissing(file: string)           // open() of a file that does not exist
    | KeyError(key: string)               // a dict lookup of an absent key
    | NameError(name: string)             // a global that was never bound
    | AttributeError                      // `.get` called on None
    | Raised(code: int)                   // an HttpError re-raised with its status code

  datatype Result<+T> = Ok(value: T) | Err(failure: Failure) {
    predicate IsFailure() {
      Err?
    }

    function PropagateFailure<U>(): Result<U>
      requires Err?
    {
      Err(failure)
    }

    function Extract(): T
      requires Ok?
    {
      value
    }
  }

  /** The scripts exactly as written, or with the fixes their authors
      evidently intended (see README, Findings). */
  datatype Variant = AsWritten | Intended

  /** How a run of a script ends. */
  datatype Status = Completed | Crashed(failure: Failure)

  /** Concatenation is associative; stated for an opaque element type so that
      callers do not compare the elements themselves. */
  lemma ConcatAssoc<T>(a: seq<T>, b: seq<T>, c: seq<T>)
    ensures a + b + c == a + (b + c)
  {
  }

  lemma ConcatNil<T>(a: seq<T>, b: seq<T>)
    requires |b| == 0
    ensures a + b == a
  {
  }
}

=== FILE: createcourse.dfy ===
/** createCourse.py: the older script. Its loop creates and registers
    courses like classroomManagement.py, but enrolls students one at a time
    by invitation, always adding the admin account around a live
    enrollment. As written, both steps read the unbound name `option`
    (lines 382 and 401) and raise NameError. */
module CreateCourse {
  import opened Common
  import opened PyDict
  import opened Roster
  import opened Remote
  import opened Cli
  import opened Plan
  import Listing

  /** The admin account brackets every live enrollment whose teacher is not
      the admin account; there is no foreign-domain condition. */
  predicate Brackets(c: Ctx, rec: ClassRecord) {
    TeacherEmail(rec) != c.admin && !c.opts.dryRun
  }

  /** The invitation `enrollStudent` sends for one student. */
  function StudentInvite(ref: CourseRef): string -> Call {
    email => Invite(ref, email, Student)
  }

  /** The per-student loop: look the student's address up, then (with the
      name fixed) invite them on a live run. */
  function EnrollEach(c: Ctx, students: seq<string>, ref: CourseRef, acc: seq<Event>): Run
    decreases |students|
  {
    if |students| == 0 then Run(acc, Completed)
    else if students[0] !in c.t.emails.values then Run(acc, Crashed(KeyError(students[0])))
    else
      match c.v
      case AsWritten => Run(acc, Crashed(NameError("option")))
      case Intended =>
        var r := if c.opts.dryRun then Run(acc, Completed)
                 else Issue(c.v, c.api, StudentInvite(ref)(c.t.emails.values[students[0]]), Invitation, acc);
        if r.status.Crashed? then r else EnrollEach(c, students[1..], ref, r.events)
  }

  /** With the name fixed, a live per-student loop over students who all
      have an address is the sequential fan-out of their invitations. */
  lemma {:induction false} EnrollEachIsFanOut(c: Ctx, students: seq<string>, ref: CourseRef, acc: seq<Event>)
    requires c.v == Intended && !c.opts.dryRun
    requires forall i :: 0 <= i < |students| ==> students[i] in c.t.emails.values
    ensures BuildCalls(students, c.t.emails.values, StudentInvite(ref)).Ok?
    ensures EnrollEach(c, students, ref, acc)
      == FanOut(Intended, c.api, BuildCalls(students, c.t.emails.values, StudentInvite(ref)).value, Invitation, acc)
    decreases |students|
  {
    if |students| > 0 {
      var calls := BuildCalls(students, c.t.emails.values, StudentInvite(ref)).value;
      var rest := students[1..];
      assert forall i :: 0 <= i < |rest| ==> rest[i] == students[i + 1];
      var r := Issue(c.v, c.api, calls[0], Invitation, acc);
      EnrollEachIsFanOut(c, rest, ref, r.events);
      assert calls[1..] == BuildCalls(rest, c.t.emails.values, StudentInvite(ref)).value;
    }
  }

  /** The enroll step of one class. */
  function EnrollStudents(c: Ctx, code: string, rec: ClassRecord, ref: CourseRef, acc: seq<Event>): Run {
    if code !in c.t.enroll.values then Run(acc, Completed)
    else
      var r1 := if Brackets(c, rec) then Issue(c.v, c.api, AddTeacher(ref, c.admin), Unguarded, acc) else Run(acc, Completed);
      if r1.status.Crashed? then r1
      else
        var r2 := EnrollEach(c, c.t.enroll.values[code], ref, r1.events);
        if r2.status.Crashed? then r2
        else if Brackets(c, rec) then Issue(c.v, c.api, RemoveTeacher(ref, c.admin), Teardown, r2.events)
        else r2
  }

  /** With the name fixed, a completed live enrollment of a class issues one
      STUDENT invitation per enrollment row, in file order, to that row's
      address, preceded by adding and followed by removing the admin account
      exactly when the teacher is not the admin account. */
  lemma StudentsBracketed(c: Ctx, code: string, rec: ClassRecord, ref: CourseRef, acc: seq<Event>)
    requires c.v == Intended && !c.opts.dryRun && code in c.t.enroll.values
    requires EnrollStudents(c, code, rec, ref, acc).status.Completed?
    ensures var students := c.t.enroll.values[code];
      && (forall i :: 0 <= i < |students| ==> students[i] in c.t.emails.values)
      && EnrollStudents(c, code, rec, ref, acc).events
           == acc
              + (if TeacherEmail(rec) != c.admin then [Remote(AddTeacher(ref, c.admin))] else [])
              + Remotes(seq(|students|, i requires 0 <= i < |students| => Invite(ref, c.t.emails.values[students[i]], Student)))
              + (if TeacherEmail(rec) != c.admin then [Remote(RemoveTeacher(ref, c.admin))] else [])
  {
    var students := c.t.enroll.values[code];
    var r1 := if Brackets(c, rec) then Issue(c.v, c.api, AddTeacher(ref, c.admin), Unguarded, acc) else Run(acc, Completed);
    var r2 := EnrollEach(c, students, ref, r1.events);
    assert r2.status.Completed?;
    AddressesKnown(c, students, ref, r1.events);
    EnrollEachIsFanOut(c, students, ref, r1.events);
    var calls := BuildCalls(students, c.t.emails.values, StudentInvite(ref)).value;
    InviteCalls(c, students, ref);
    assert r2.events == r1.events + Remotes(calls);
    if Brackets(c, rec) {
      var r3 := Issue(c.v, c.api, RemoveTeacher(ref, c.admin), Teardown, r2.events);
      assert EnrollStudents(c, code, rec, ref, acc) == r3;
      assert r3.events == r2.events + [Remote(RemoveTeacher(ref, c.admin))];
    } else {
      assert EnrollStudents(c, code, rec, ref, acc) == r2;
      ConcatNil(acc, []);
      ConcatNil(acc + Remotes(calls), []);
    }
  }

  lemma InviteCalls(c: Ctx, students: seq<string>, ref: CourseRef)
    requires forall i :: 0 <= i < |students| ==> students[i] in c.t.emails.values
    ensures BuildCalls(students, c.t.emails.values, StudentInvite(ref)).Ok?
    ensures BuildCalls(students, c.t.emails.values, StudentInvite(ref)).value
      == seq(|students|, i requires 0 <= i < |students| => Invite(ref, c.t.emails.values[students[i]], Student))
  {
  }

  /** A loop that completes found every student's address. */
  lemma {:induction false} AddressesKnown(c: Ctx, students: seq<string>, ref: CourseRef, acc: seq<Event>)
    requires EnrollEach(c, students, ref, acc).status.Completed?
    ensures forall i :: 0 <= i < |students| ==> students[i] in c.t.emails.values
    decreases |students|
  {
    if |students| > 0 {
      var r := if c.opts.dryRun then Run(acc, Completed)
               else Issue(c.v, c.api, StudentInvite(ref)(c.t.emails.values[students[0]]), Invitation, acc);
      AddressesKnown(c, students[1..], ref, r.events);
      assert forall i :: 1 <= i < |students| ==> students[i] == students[1..][i - 1];
    }
  }

  /** One pass of the loop body for class `code`. */
  function PlanClass(c: Ctx, code: string, acc: seq<Event>): Run {
    match Lookup(c.t, code)
    case Err(f) => Run(acc, Crashed(f))
    case Ok((rec, ref)) =>
      var (r, ref') :=
        if !Creates(c.mode) then (Run(acc, Completed), ref)
        else
          match c.v
          case AsWritten => (Run(acc, Crashed(NameError("option"))), ref)
          case Intended => if c.opts.dryRun then (Run(acc, Completed), ref) else CreatePhase(c, code, rec, ref, acc);
      if r.status.Crashed? || !Enrolls(c.mode) then r
      else EnrollStudents(c, code, rec, ref', r.events)
  }

  function Step(c: Ctx): (string, seq<Event>) -> Run {
    (code, acc) => PlanClass(c, code, acc)
  }

  /** The run after `readData`, by mode. */
  function Execute(c: Ctx): Run {
    Dispatch(c, Step(c), Listing.ListCreateCourse(c.listing))
  }

  /** The whole script: options, tables (students from students.csv), then
      the run. */
  function Session(v: Variant, args: Args, admin: string, fs: string -> Option<seq<string>>, api: Api, listing: Listing.ListingApi): Run {
    match ParseCreateCourse(v, args)
    case Err(f) => Run([], Crashed(f))
    case Ok((mode, opts)) =>
      match ReadData(Names(opts.classFile, opts.enrollFile, "students.csv"), fs)
      case Err(f) => Run([], Crashed(f))
      case Ok(t) => Execute(Ctx(v, mode, opts, admin, t, api, listing))
  }

  /** What the non-loop commands issue, in terms of the parsed options. */
  lemma ExecuteDispatch(c: Ctx)
    ensures c.mode == Info && !c.opts.dryRun ==> Execute(c).events == [Remote(GetCourse(c.opts.courseId.GetOr("")))]
    ensures c.mode == Remove ==> var ids := c.opts.courses.GetOr([]);
      |Execute(c).events| <= |ids|
      && forall i :: 0 <= i < |Execute(c).events| ==> Execute(c).events[i] == Remote(DeleteCourse(ids[i]))
    ensures c.mode == Lists ==> forall i :: 0 <= i < |Execute(c).events| ==> Execute(c).events[i].WriteReport?
  {
  }

  /** The options are parsed, then all four tables loaded, before anything
      else: a failure of either is the whole run. After that, `info` issues
      the single lookup of the named course, `remove` (once it parses)
      deletes the named courses in order, and `lists` issues no request of
      the kind modelled here. */
  lemma SessionDispatch(v: Variant, args: Args, admin: string, fs: string -> Option<seq<string>>, api: Api, listing: Listing.ListingApi)
    ensures var p := ParseCreateCourse(v, args);
      var r := Session(v, args, admin, fs, api, listing);
      && (p.Err? ==> r == Run([], Crashed(p.failure)))
      && (p.Ok? ==>
            var d := ReadData(Names(p.value.1.classFile, p.value.1.enrollFile, "students.csv"), fs);
            && (d.Err? ==> r == Run([], Crashed(d.failure)))
            && (d.Ok? && args.command == InfoCmd && !args.dryRun ==> r.events == [Remote(GetCourse(args.courseId))])
            && (d.Ok? && args.command == RemoveCmd ==>
                  |r.events| <= |args.courses|
                  && forall i :: 0 <= i < |r.events| ==> r.events[i] == Remote(DeleteCourse(args.courses[i])))
            && (d.Ok? && args.command == ListsCmd ==> forall i :: 0 <= i < |r.events| ==> r.events[i].WriteReport?))
  {
    var p := ParseCreateCourse(v, args);
    if p.Ok? {
      var (mode, opts) := p.value;
      var d := ReadData(Names(opts.classFile, opts.enrollFile, "students.csv"), fs);
      if d.Ok? {
        var c := Ctx(v, mode, opts, admin, d.value, api, listing);
        assert Session(v, args, admin, fs, api, listing) == Execute(c);
        ExecuteDispatch(c);
      }
    }
  }

  lemma {:induction false} EnrollEachExtends(c: Ctx, students: seq<string>, ref: CourseRef, acc: seq<Event>)
    ensures acc <= EnrollEach(c, students, ref, acc).events
    decreases |students|
  {
    if |students| > 0 && students[0] in c.t.emails.values && c.v == Intended {
      var r := if c.opts.dryRun then Run(acc, Completed)
               else Issue(c.v, c.api, StudentInvite(ref)(c.t.emails.values[students[0]]), Invitation, acc);
      if r.status.Completed? {
        EnrollEachExtends(c, students[1..], ref, r.events);
      }
    }
  }

  /** A loop pass only grows the trace, and a class missing from the class
      table or the registry stops the run with KeyError before anything is
      issued for it. */
  lemma PlanClassExtends(c: Ctx, code: string, acc: seq<Event>)
    ensures acc <= PlanClass(c, code, acc).events
    ensures Lookup(c.t, code).Err? ==> PlanClass(c, code, acc) == Run(acc, Crashed(KeyError(code)))
  {
    match Lookup(c.t, code)
    case Err(_) =>
    case Ok((rec, ref)) =>
      var (r, ref') :=
        if !Creates(c.mode) then (Run(acc, Completed), ref)
        else
          match c.v
          case AsWritten => (Run(acc, Crashed(NameError("option"))), ref)
          case Intended => if c.opts.dryRun then (Run(acc, Completed), ref) else CreatePhase(c, code, rec, ref, acc);
      assert acc <= r.events;
      if !r.status.Crashed? && Enrolls(c.mode) && code in c.t.enroll.values {
        var r1 := if Brackets(c, rec) then Issue(c.v, c.api, AddTeacher(ref', c.admin), Unguarded, r.events) else Run(r.events, Completed);
        EnrollEachExtends(c, c.t.enroll.values[code], ref', r1.events);
      }
  }

  lemma PlanClassDryRun(c: Ctx)
    requires c.opts.dryRun
    ensures forall code, acc :: Step(c)(code, acc).events == acc
  {
    forall code, acc ensures Step(c)(code, acc).events == acc {
      match Lookup(c.t, code)
      case Err(f) =>
      case Ok((rec, ref)) =>
        if code in c.t.enroll.values {
          DryEnrollEach(c, c.t.enroll.values[code], ref, acc);
        }
    }
  }

  lemma {:induction false} DryEnrollEach(c: Ctx, students: seq<string>, ref: CourseRef, acc: seq<Event>)
    requires c.opts.dryRun
    ensures EnrollEach(c, students, ref, acc).events == acc
    decreases |students|
  {
    if |students| > 0 {
      DryEnrollEach(c, students[1..], ref, acc);
    }
  }

  /** A dry run issues no request, appends no registry row and writes no
      report, in either variant. */
  lemma DryRunIssuesNothing(v: Variant, args: Args, admin: string, fs: string -> Option<seq<string>>, api: Api, listing: Listing.ListingApi)
    requires args.dryRun
    ensures Session(v, args, admin, fs, api, listing).events == []
  {
    var p := ParseCreateCourse(v, args);
    if p.Ok? {
      var (mode, opts) := p.value;
      var r := ReadData(Names(opts.classFile, opts.enrollFile, "students.csv"), fs);
      if r.Ok? {
        var c := Ctx(v, mode, opts, admin, r.value, api, listing);
        PlanClassDryRun(c);
        DryDispatch(c, Step(c), Listing.ListCreateCourse(c.listing));
      }
    }
  }

  /** An event that creates a course or invites a member. */
  function Productive(): Event -> bool {
    (e: Event) => e.Remote? && (e.call.CreateCourse? || e.call.Invite?)
  }

  /** As written, the script never creates a course and never invites a
      student: the first class that reaches either step raises NameError. */
  lemma AsWrittenNeverCreatesOrEnrolls(c: Ctx)
    requires c.v == AsWritten && c.mode in {Create, Enroll, Default}
    ensures NoneOf(Execute(c).events, Productive())
  {
    forall code, a | NoneOf(a, Productive()) ensures NoneOf(Step(c)(code, a).events, Productive()) {
      match Lookup(c.t, code)
      case Err(f) =>
      case Ok((rec, ref)) =>
        if !Creates(c.mode) && code in c.t.enroll.values {
          var r1 := if Brackets(c, rec) then Issue(c.v, c.api, AddTeacher(ref, c.admin), Unguarded, a) else Run(a, Completed);
          var r2 := EnrollEach(c, c.t.enroll.values[code], ref, r1.events);
          assert r2.events == r1.events;
          assert NoneOf(r1.events, Productive());
        }
    }
    LoopAvoids(Step(c), Targets(c.mode, c.t), [], Productive());
  }

  /** With the name fixed, a live `create` pass over a class found in both
      tables issues the creation request and appends the new course's
      registry row, and nothing else. */
  lemma IntendedCreatesAndRegisters(c: Ctx, code: string, acc: seq<Event>)
    requires c.v == Intended && c.mode == Create && !c.opts.dryRun
    requires code in c.t.classes.values && code in c.t.registry.values
    requires PlanClass(c, code, acc).status.Completed?
    ensures var rec := c.t.classes.values[code];
      PlanClass(c, code, acc).events
        == acc + [Remote(CreateCall(code, rec)), AppendRegistry(RegistryRow(code, rec, c.api.created(CreateCall(code, rec))))]
  {
    var (rec, ref) := Lookup(c.t, code).value;
    CreatePhaseShape(c, code, rec, ref, acc);
  }

  /** As written, `remove` never reaches the service: option parsing raises
      KeyError before any file is read. */
  lemma AsWrittenRemoveRaises(args: Args, admin: string, fs: string -> Option<seq<string>>, api: Api, listing: Listing.ListingApi)
    requires args.command == RemoveCmd
    ensures Session(AsWritten, args, admin, fs, api, listing) == Run([], Crashed(KeyError("courses")))
  {
  }
}

=== FILE: csv.dfy ===
/** The line handling both scripts apply to every CSV file they read:
    `line.rstrip("\n").split(",")`. There is no quoting and no escaping, so a
    field can never contain the separator. */
module Csv {

  /** Number of occurrences of `c` in `s`. */
  function Count(s: string, c: char): nat {
    if |s| == 0 then 0 else (if s[0] == c then 1 else 0) + Count(s[1..], c)
  }

  /** Python's `s.rstrip("\n")`: drops every trailing newline, nothing else. */
  function StripNewline(s: string): (r: string)
    ensures r <= s
    ensures forall i :: |r| <= i < |s| ==> s[i] == '\n'
    ensures |r| == 0 || r[|r| - 1] != '\n'
  {
    if |s| > 0 && s[|s| - 1] == '\n' then StripNewline(s[..|s| - 1]) else s
  }

  /** Python's `s.split(sep)` with an explicit one-character separator: one
      more field than there are separators, none of them holding `sep`. */
  function Split(s: string, sep: char): (r: seq<string>)
    ensures |r| == Count(s, sep) + 1
    ensures forall i :: 0 <= i < |r| ==> sep !in r[i]
  {
    if |s| == 0 then [""]
    else
      var rest := Split(s[1..], sep);
      if s[0] == sep then [""] + rest
      else [[s[0]] + rest[0]] + rest[1..]
  }

  /** Python's `sep.join(fields)`. */
  function Join(fields: seq<string>, sep: char): string {
    if |fields| == 0 then ""
    else if |fields| == 1 then fields[0]
    else fields[0] + [sep] + Join(fields[1..], sep)
  }

  /** The fields of one line of a CSV file as the scripts read it. */
  function Fields(line: string): seq<string> {
    Split(StripNewline(line), ',')
  }

  /** Joining the fields of a split gives back the string. */
  lemma {:induction false} JoinSplit(s: string, sep: char)
    ensures Join(Split(s, sep), sep) == s
  {
    if |s| > 0 {
      JoinSplit(s[1..], sep);
      var rest := Split(s[1..], sep);
      if s[0] == sep {
        assert Split(s, sep) == [""] + rest;
        assert Join([""] + rest, sep) == "" + [sep] + Join(rest, sep);
      } else if |rest| == 1 {
        assert Split(s, sep) == [[s[0]] + rest[0]];
        assert s == [s[0]] + s[1..];
      } else {
        var head := [s[0]] + rest[0];
        assert Split(s, sep) == [head] + rest[1..];
        assert ([head] + rest[1..])[1..] == rest[1..];
        assert Join([head] + rest[1..], sep) == head + [sep] + Join(rest[1..], sep);
        assert Join(rest, sep) == rest[0] + [sep] + Join(rest[1..], sep);
        assert s == [s[0]] + s[1..];
      }
    }
  }

  /** Splitting `w + t`, where `w` holds no separator, glues `w` onto the
      first field of `t`. */
  lemma {:induction false} SplitPrefix(w: string, t: string, sep: char)
    requires sep !in w
    ensures Split(w + t, sep) == [w + Split(t, sep)[0]] + Split(t, sep)[1..]
  {
    if |w| > 0 {
      SplitPrefix(w[1..], t, sep);
      assert (w + t)[1..] == w[1..] + t;
      assert (w + t)[0] == w[0];
      assert [w[0]] + (w[1..] + Split(t, sep)[0]) == w + Split(t, sep)[0];
    } else {
      var r := Split(t, sep);
      assert w + t == t;
      assert w + r[0] == r[0];
      assert r == [r[0]] + r[1..];
    }
  }

  /** Splitting a join gives back the fields, provided there is at least one
      field and no field holds the separator. */
  lemma {:induction false} SplitJoin(fields: seq<string>, sep: char)
    requires |fields| >= 1
    requires forall i :: 0 <= i < |fields| ==> sep !in fields[i]
    ensures Split(Join(fields, sep), sep) == fields
  {
    var f := fields[0];
    if |fields| == 1 {
      SplitPrefix(f, "", sep);
      assert f + "" == f;
    } else {
      var rest := fields[1..];
      SplitJoin(rest, sep);
      var t := [sep] + Join(rest, sep);
      assert Join(fields, sep) == f + t;
      SplitPrefix(f, t, sep);
      assert t[0] == sep && t[1..] == Join(rest, sep);
      assert Split(t, sep) == [""] + Split(t[1..], sep);
      assert Split(t, sep) == [""] + rest;
      assert f + "" == f;
      assert fields == [f] + rest;
    }
  }
}

=== FILE: listing.dfy ===
/** The `lists` command: one CSV row per course with a fixed header.
    classroomManagement.py builds rows in a pool (`listClassroomProc`) and
    joins every teacher's name with '/'; createCourse.py builds them one by
    one and takes the first teacher only. */
module Listing {
  import opened Common
  import Csv

  /** The fields of a course resource the rows read (`course.get(...)`). */
  datatype Course = Course(
    id: Option<string>,
    name: Option<string>,
    section: Option<string>,
    enrollmentCode: Option<string>,
    ownerId: Option<string>,
    courseState: Option<string>)

  datatype Reply<T> = Answer(value: T) | Refused(code: int)

  /** The service as listing sees it: the first page of courses, and the
      full names of each course's teachers. */
  datatype ListingApi = ListingApi(courses: Reply<seq<Course>>, teachers: Option<string> -> Reply<seq<string>>)

  /** The report file as written (`None`: never opened) and how the run ended. */
  datatype Listed = Listed(report: Option<seq<seq<string>>>, status: Status)

  /** The header row; column "classCode" holds the course's enrollment code. */
  const Header: seq<string> := ["courseName", "courseSection", "courseId", "classCode", "ownerId", "teacherName", "status"]

  /** csv.writer writes None as an empty field. */
  function Cell(o: Option<string>): string {
    o.GetOr("")
  }

  /** Python's `s.lstrip(c)`. */
  function LStrip(s: string, c: char): string {
    if |s| > 0 && s[0] == c then LStrip(s[1..], c) else s
  }

  /** `lstrip` keeps a suffix, drops only `c`, and leaves no leading `c`. */
  lemma {:induction false} LStripStrips(s: string, c: char)
    ensures var r := LStrip(s, c);
      && |r| <= |s| && r == s[|s| - |r|..]
      && (forall i :: 0 <= i < |s| - |r| ==> s[i] == c)
      && (|r| == 0 || r[0] != c)
  {
    if |s| > 0 && s[0] == c {
      LStripStrips(s[1..], c);
      var r := LStrip(s, c);
      assert s[1..][|s| - 1 - |r|..] == s[|s| - |r|..];
      forall i | 0 <= i < |s| - |r| ensures s[i] == c {
        if i > 0 { assert s[i] == s[1..][i - 1]; }
      }
    }
  }

  /** The loop `teacherName += "/" + name`. */
  function SlashPrefixed(names: seq<string>): string {
    if |names| == 0 then "" else SlashPrefixed(names[..|names| - 1]) + "/" + names[|names| - 1]
  }

  /** The teacher column of classroomManagement.py: the slash-prefixed names
      with every leading '/' stripped. */
  function TeacherNames(names: seq<string>): string {
    LStrip(SlashPrefixed(names), '/')
  }

  lemma {:induction false} SlashPrefixedJoin(names: seq<string>)
    requires |names| > 0
    ensures SlashPrefixed(names) == "/" + Csv.Join(names, '/')
  {
    if |names| > 1 {
      var p := names[..|names| - 1];
      SlashPrefixedJoin(p);
      JoinSnoc(p, names[|names| - 1]);
      assert p + [names[|names| - 1]] == names;
    }
  }

  lemma {:induction false} JoinSnoc(fields: seq<string>, last: string)
    requires |fields| > 0
    ensures Csv.Join(fields + [last], '/') == Csv.Join(fields, '/') + "/" + last
  {
    if |fields| == 1 {
      assert fields + [last] == [fields[0], last];
      assert [fields[0], last][1..] == [last];
    } else {
      JoinSnoc(fields[1..], last);
      assert (fields + [last])[1..] == fields[1..] + [last];
    }
  }

  /** The teacher column is the names joined by '/' whenever the first name
      neither is empty nor starts with '/' (otherwise lstrip eats more than the
      leading separator). */
  lemma TeacherNamesJoin(names: seq<string>)
    requires |names| > 0 && names[0] != "" && names[0][0] != '/'
    ensures TeacherNames(names) == Csv.Join(names, '/')
  {
    SlashPrefixedJoin(names);
    var j := Csv.Join(names, '/');
    assert j[0] == names[0][0] by {
      if |names| > 1 { assert j == names[0] + ("/" + Csv.Join(names[1..], '/')); }
    }
    LStripOne(j, '/');
  }

  /** `lstrip` removes a single leading `c` from a string that does not
      otherwise start with `c`. */
  lemma LStripOne(j: string, c: char)
    requires |j| > 0 && j[0] != c
    ensures LStrip([c] + j, c) == j
  {
    assert ([c] + j)[1..] == j;
  }

  /** Names free of '/' with a non-empty first one are recovered from the
      teacher column by splitting it on '/'. */
  lemma TeacherNamesRoundTrip(names: seq<string>)
    requires |names| > 0 && names[0] != ""
    requires forall i :: 0 <= i < |names| ==> '/' !in names[i]
    ensures Csv.Split(TeacherNames(names), '/') == names
  {
    assert names[0][0] in names[0];
    TeacherNamesJoin(names);
    Csv.SplitJoin(names, '/');
  }

  /** One report row: name, section, id, enrollment code, owner, teachers,
      state. */
  function CourseRow(c: Course, teacherCell: string): (row: seq<string>)
    ensures |row| == |Header|
    ensures row[0] == Cell(c.name) && row[1] == Cell(c.section) && row[2] == Cell(c.id)
    ensures row[3] == Cell(c.enrollmentCode) && row[4] == Cell(c.ownerId)
    ensures row[5] == teacherCell && row[6] == Cell(c.courseState)
  {
    [Cell(c.name), Cell(c.section), Cell(c.id), Cell(c.enrollmentCode), Cell(c.ownerId), teacherCell, Cell(c.courseState)]
  }

  /** The teacher list of course `c` was returned. */
  predicate Answers(api: ListingApi, c: Course) {
    api.teachers(c.id).Answer?
  }

  /** `listClassroomProc(course)`: the course's row with every teacher's name. */
  function ReportRow(api: ListingApi, c: Course): seq<string>
    requires Answers(api, c)
  {
    CourseRow(c, TeacherNames(api.teachers(c.id).value))
  }

  /** Course `k` is the first whose teacher list was refused. */
  predicate FirstSilent(api: ListingApi, cs: seq<Course>, k: int) {
    && 0 <= k < |cs| && !Answers(api, cs[k])
    && forall j :: 0 <= j < k ==> Answers(api, cs[j])
  }

  /** `listClassroomProc` for every course, results in course order (istarmap
      keeps order); the first course whose teacher list fails ends it. */
  function CollectRows(cs: seq<Course>, api: ListingApi): (r: Result<seq<seq<string>>>)
    ensures r.Ok? <==> forall i :: 0 <= i < |cs| ==> Answers(api, cs[i])
    ensures r.Err? ==> exists k :: FirstSilent(api, cs, k) && r.failure == Raised(api.teachers(cs[k].id).code)
    ensures r.Ok? ==> |r.value| == |cs|
    ensures r.Ok? ==> forall i :: 0 <= i < |cs| ==> r.value[i] == ReportRow(api, cs[i])
  {
    if |cs| == 0 then Ok([])
    else
      var tail := cs[1..];
      assert forall i :: 0 <= i < |tail| ==> tail[i] == cs[i + 1];
      if !Answers(api, cs[0]) then
        assert FirstSilent(api, cs, 0);
        Err(Raised(api.teachers(cs[0].id).code))
      else
        var rest := CollectRows(tail, api);
        if rest.Err? then
          var k :| FirstSilent(api, tail, k) && rest.failure == Raised(api.teachers(tail[k].id).code);
          assert FirstSilent(api, cs, k + 1);
          Err(rest.failure)
        else
          var rows := [ReportRow(api, cs[0])] + rest.value;
          assert forall i :: 0 <= i < |tail| ==> rows[i + 1] == rest.value[i];
          Ok(rows)
  }

  /** classroomManagement.py's `listClassroom`. As written, a non-empty
      course list reaches a print of the unbound name `totalProcess` before
      the file is opened. */
  function ListManagement(v: Variant, api: ListingApi): (r: Listed)
    ensures api.courses.Refused? ==> r == Listed(None, Crashed(Raised(api.courses.code)))
    ensures api.courses.Answer? && api.courses.value == [] ==> r == Listed(None, Completed)
    ensures v == AsWritten ==> r.report == None
    ensures r.report.Some? ==> |r.report.value| >= 1 && r.report.value[0] == Header
    ensures v == Intended && api.courses.Answer? && api.courses.value != [] ==>
      var cs := api.courses.value;
      && r.report.Some?
      && (r.status.Completed? <==> forall i :: 0 <= i < |cs| ==> Answers(api, cs[i]))
      && (r.status.Crashed? ==>
            && r.report == Some([Header])
            && exists k :: FirstSilent(api, cs, k) && r.status.failure == Raised(api.teachers(cs[k].id).code))
  {
    match api.courses
    case Refused(code) => Listed(None, Crashed(Raised(code)))
    case Answer(cs) =>
      if |cs| == 0 then Listed(None, Completed)
      else
        match v
        case AsWritten => Listed(None, Crashed(NameError("totalProcess")))
        case Intended =>
          match CollectRows(cs, api)
          case Err(f) => Listed(Some([Header]), Crashed(f))
          case Ok(rows) => Listed(Some([Header] + rows), Completed)
  }

  /** With the name fixed, a listing whose teacher lookups all answer writes
      the header and then one row per course, in course order. */
  lemma ListingOneRowPerCourse(api: ListingApi)
    requires api.courses.Answer? && |api.courses.value| > 0
    requires forall i :: 0 <= i < |api.courses.value| ==> Answers(api, api.courses.value[i])
    ensures var r := ListManagement(Intended, api);
      && r.status == Completed && r.report.Some?
      && |r.report.value| == |api.courses.value| + 1
      && forall i :: 0 <= i < |api.courses.value| ==>
           r.report.value[i + 1] == ReportRow(api, api.courses.value[i])
  {
  }

  /** As written, any non-empty course list ends in NameError with no file. */
  lemma ListingAsWrittenFails(api: ListingApi)
    requires api.courses.Answer? && |api.courses.value| > 0
    ensures ListManagement(AsWritten, api) == Listed(None, Crashed(NameError("totalProcess")))
  {
  }

  /** createCourse.py's `listClassroom`: rows are written one by one, each
      naming only the course's first teacher. */
  function ListCreateCourse(api: ListingApi): (r: Listed)
    ensures api.courses.Refused? ==> r == Listed(None, Crashed(Raised(api.courses.code)))
    ensures api.courses.Answer? && api.courses.value == [] ==> r == Listed(None, Completed)
    ensures api.courses.Answer? && api.courses.value != [] ==>
      var cs := api.courses.value;
      && r.report.Some? && 1 <= |r.report.value| <= 1 + |cs| && r.report.value[0] == Header
      && (forall i :: 0 <= i < |r.report.value| - 1 ==>
            HasTeacher(api, cs[i]) && r.report.value[i + 1] == FirstTeacherRow(api, cs[i]))
      && (r.status.Completed? <==> forall i :: 0 <= i < |cs| ==> HasTeacher(api, cs[i]))
      && (r.status.Completed? ==> |r.report.value| == 1 + |cs|)
      && (r.status.Crashed? ==>
            var k := |r.report.value| - 1;
            k < |cs| && !HasTeacher(api, cs[k])
            && r.status.failure == (match api.teachers(cs[k].id) case Refused(code) => Raised(code) case Answer(_) => NoTeacher))
  {
    match api.courses
    case Refused(code) => Listed(None, Crashed(Raised(code)))
    case Answer(cs) => if |cs| == 0 then Listed(None, Completed) else WriteRows(cs, api, [Header])
  }

  /** The course's teacher lookup answered with at least one name. */
  predicate HasTeacher(api: ListingApi, c: Course) {
    api.teachers(c.id).Answer? && |api.teachers(c.id).value| > 0
  }

  /** The row createCourse.py writes for a course: its first teacher only. */
  function FirstTeacherRow(api: ListingApi, c: Course): seq<string>
    requires HasTeacher(api, c)
  {
    CourseRow(c, api.teachers(c.id).value[0])
  }

  /** Rows are appended after `written`, one per course in order, until the
      first course whose teacher lookup is refused or comes back empty. */
  function WriteRows(cs: seq<Course>, api: ListingApi, written: seq<seq<string>>): (r: Listed)
    ensures r.report.Some? && written <= r.report.value
    ensures |r.report.value| <= |written| + |cs|
    ensures forall i :: 0 <= i < |r.report.value| - |written| ==>
      HasTeacher(api, cs[i]) && r.report.value[|written| + i] == FirstTeacherRow(api, cs[i])
    ensures r.status.Completed? <==> forall i :: 0 <= i < |cs| ==> HasTeacher(api, cs[i])
    ensures r.status.Completed? ==> |r.report.value| == |written| + |cs|
    ensures r.status.Crashed? ==>
      var k := |r.report.value| - |written|;
      k < |cs| && !HasTeacher(api, cs[k])
      && r.status.failure == (match api.teachers(cs[k].id) case Refused(code) => Raised(code) case Answer(_) => NoTeacher)
    decreases |cs|
  {
    if |cs| == 0 then Listed(Some(written), Completed)
    else
      match api.teachers(cs[0].id)
      case Refused(code) => Listed(Some(written), Crashed(Raised(code)))
      case Answer(names) =>
        if |names| == 0 then Listed(Some(written), Crashed(NoTeacher))
        else
          var row := CourseRow(cs[0], names[0]);
          var r := WriteRows(cs[1..], api, written + [row]);
          assert forall i :: 0 <= i < |cs| - 1 ==> cs[1..][i] == cs[i + 1];
          assert r.report.value[|written|] == row by {
            assert (written + [row]) <= r.report.value;
          }
          r
  }

  /** The course has exactly one teacher, with a non-empty name that does
      not start with '/'. */
  predicate SingleTeacher(api: ListingApi, c: Course) {
    var t := api.teachers(c.id);
    t.Answer? && |t.value| == 1 && t.value[0] != "" && t.value[0][0] != '/'
  }

  /** When every course has a single teacher, the two scripts write the
      same report. */
  lemma {:induction false} ListingsAgree(api: ListingApi)
    requires api.courses.Answer?
    requires forall i :: 0 <= i < |api.courses.value| ==> SingleTeacher(api, api.courses.value[i])
    ensures ListCreateCourse(api) == ListManagement(Intended, api)
  {
    var cs := api.courses.value;
    if |cs| > 0 {
      WriteRowsAgree(cs, api, [Header]);
    }
  }

  /** For a single-teacher course the first teacher's name is the whole
      teacher column. */
  lemma SingleTeacherRow(api: ListingApi, c: Course)
    requires SingleTeacher(api, c)
    ensures Answers(api, c) && ReportRow(api, c) == CourseRow(c, api.teachers(c.id).value[0])
  {
    var names := api.teachers(c.id).value;
    TeacherNamesJoin(names);
    assert Csv.Join(names, '/') == names[0];
  }

  lemma CollectRowsCons(cs: seq<Course>, api: ListingApi)
    requires |cs| > 0 && Answers(api, cs[0]) && CollectRows(cs[1..], api).Ok?
    ensures CollectRows(cs, api)
      == Ok([ReportRow(api, cs[0])] + CollectRows(cs[1..], api).value)
  {
  }

  /** A single-teacher course at the head adds its row and moves on. */
  lemma WriteRowsStep(cs: seq<Course>, api: ListingApi, written: seq<seq<string>>)
    requires |cs| > 0 && SingleTeacher(api, cs[0])
    ensures WriteRows(cs, api, written) == WriteRows(cs[1..], api, written + [CourseRow(cs[0], api.teachers(cs[0].id).value[0])])
  {
  }

  lemma {:induction false} WriteRowsAgree(cs: seq<Course>, api: ListingApi, written: seq<seq<string>>)
    requires forall i :: 0 <= i < |cs| ==> SingleTeacher(api, cs[i])
    ensures CollectRows(cs, api).Ok?
    ensures WriteRows(cs, api, written) == Listed(Some(written + CollectRows(cs, api).value), Completed)
    decreases |cs|
  {
    if |cs| == 0 {
      assert written + [] == written;
    } else {
      var tail := cs[1..];
      assert forall i :: 0 <= i < |tail| ==> tail[i] == cs[i + 1];
      SingleTeacherRow(api, cs[0]);
      var row := ReportRow(api, cs[0]);
      WriteRowsStep(cs, api, written);
      WriteRowsAgree(tail, api, written + [row]);
      var rest := CollectRows(tail, api).value;
      CollectRowsCons(cs, api);
      ConcatAssoc(written, [row], rest);
    }
  }

}

=== FILE: management.dfy ===
/** classroomManagement.py: the `__main__` loop and the member fan-out. Per
    class it looks the class up, creates and registers the course (create,
    all), and enrolls the class's members (enroll, all): in foreign-domain
    mode by invitation with the admin account added to the course around
    the fan-out, otherwise by direct creation. */
module Management {
  import opened Common
  import opened PyDict
  import opened Roster
  import opened Remote
  import opened Cli
  import opened Plan
  import Listing

  /** The admin account is added to the course before the member fan-out and
      removed after it only on a live foreign-domain run whose teacher is not
      the admin account itself. */
  predicate Brackets(c: Ctx, rec: ClassRecord) {
    TeacherEmail(rec) != c.admin && !c.opts.dryRun && c.opts.foreignDomain
  }

  /** The request for one member: an invitation in foreign-domain mode (role
      TEACHER with the teacher option, else STUDENT), otherwise a direct
      teacher or student creation. */
  function MemberCall(opts: Options, course: CourseRef, email: string): Call {
    if opts.foreignDomain then Invite(course, email, if opts.teacherRole then Teacher else Student)
    else if opts.teacherRole then AddTeacher(course, email)
    else AddStudent(course, email)
  }

  function MemberHandler(opts: Options): Handler {
    if opts.foreignDomain then Invitation else DirectEnroll
  }

  /** The work list of `inviteUsers` / `createUsers`: per enrollment row the
      course id from the registry (not a freshly created one) and the user's
      address. */
  function MemberCalls(c: Ctx, code: string): Result<seq<Call>>
    requires code in c.t.enroll.values
  {
    var users := c.t.enroll.values[code];
    if |users| == 0 then Ok([])
    else if code !in c.t.registry.values then Err(KeyError(code))
    else
      var course := Id(c.t.registry.values[code]);
      BuildCalls(users, c.t.emails.values, email => MemberCall(c.opts, course, email))
  }

  /** One work item per enrollment row of the class, in file order, each for
      that row's user; invitations carry role TEACHER exactly when the
      teacher option is set, direct creations go to the teacher list exactly
      then. */
  lemma MemberCallsOnePerRow(c: Ctx, code: string)
    requires code in c.t.enroll.values && code in c.t.registry.values
    requires forall i :: 0 <= i < |c.t.enroll.values[code]| ==> c.t.enroll.values[code][i] in c.t.emails.values
    ensures MemberCalls(c, code).Ok?
    ensures var calls := MemberCalls(c, code).value;
      var users := c.t.enroll.values[code];
      && |calls| == |users|
      && forall i :: 0 <= i < |calls| ==>
        && calls[i].course == Id(c.t.registry.values[code])
        && calls[i].userId == c.t.emails.values[users[i]]
        && (c.opts.foreignDomain ==> calls[i].Invite? && (calls[i].role == Teacher <==> c.opts.teacherRole))
        && (!c.opts.foreignDomain ==> (calls[i].AddTeacher? <==> c.opts.teacherRole) && (calls[i].AddStudent? <==> !c.opts.teacherRole))
  {
  }

  /** `inviteUsers(classCode)` or `createUsers(classCode)`. */
  function Members(c: Ctx, code: string, acc: seq<Event>): Run
    requires code in c.t.enroll.values
  {
    match MemberCalls(c, code)
    case Err(f) => Run(acc, Crashed(f))
    case Ok(calls) => FanOut(c.v, c.api, calls, MemberHandler(c.opts), acc)
  }

  /** The whole work list is built before the pool starts: a member without
      an address stops the class with KeyError for the first such member, and
      no request has been issued. */
  lemma MembersBuildListFirst(c: Ctx, code: string, acc: seq<Event>, j: nat)
    requires code in c.t.enroll.values && code in c.t.registry.values
    requires var users := c.t.enroll.values[code];
      && j < |users| && users[j] !in c.t.emails.values
      && forall k :: 0 <= k < j ==> users[k] in c.t.emails.values
    ensures Members(c, code, acc) == Run(acc, Crashed(KeyError(c.t.enroll.values[code][j])))
  {
    var users := c.t.enroll.values[code];
    var m := MemberCalls(c, code);
    assert m.Err?;
    var j' :| 0 <= j' < |users| && users[j'] !in c.t.emails.values && m.failure == KeyError(users[j'])
      && forall k :: 0 <= k < j' ==> users[k] in c.t.emails.values;
    assert j' == j;
  }

  /** The enroll step of one class. */
  function EnrollPhase(c: Ctx, code: string, rec: ClassRecord, ref: CourseRef, acc: seq<Event>): Run {
    if code !in c.t.enroll.values then Run(acc, Completed)
    else
      var r1 := if Brackets(c, rec) then Issue(c.v, c.api, AddTeacher(ref, c.admin), Unguarded, acc) else Run(acc, Completed);
      if r1.status.Crashed? then r1
      else
        var r2 := if c.opts.dryRun then r1 else Members(c, code, r1.events);
        if r2.status.Crashed? then r2
        else if Brackets(c, rec) then Issue(c.v, c.api, RemoveTeacher(ref, c.admin), Teardown, r2.events)
        else r2
  }

  /** A completed live enroll step issues nothing for a class without
      enrollment rows; otherwise it issues the member work list in order,
      preceded by adding and followed by removing the admin account exactly
      when the bracketing condition holds. */
  lemma EnrollPhaseShape(c: Ctx, code: string, rec: ClassRecord, ref: CourseRef, acc: seq<Event>)
    requires !c.opts.dryRun
    requires EnrollPhase(c, code, rec, ref, acc).status.Completed?
    ensures code !in c.t.enroll.values ==> EnrollPhase(c, code, rec, ref, acc).events == acc
    ensures code in c.t.enroll.values ==>
      && MemberCalls(c, code).Ok?
      && EnrollPhase(c, code, rec, ref, acc).events
           == acc
              + (if TeacherEmail(rec) != c.admin && c.opts.foreignDomain then [Remote(AddTeacher(ref, c.admin))] else [])
              + Remotes(MemberCalls(c, code).value)
              + (if TeacherEmail(rec) != c.admin && c.opts.foreignDomain then [Remote(RemoveTeacher(ref, c.admin))] else [])
  {
    if code in c.t.enroll.values {
      var r1 := if Brackets(c, rec) then Issue(c.v, c.api, AddTeacher(ref, c.admin), Unguarded, acc) else Run(acc, Completed);
      var r2 := Members(c, code, r1.events);
      assert r2.status.Completed?;
      if Brackets(c, rec) {
        assert EnrollPhase(c, code, rec, ref, acc).events == r2.events + [Remote(RemoveTeacher(ref, c.admin))];
      } else {
        assert acc + [] == acc;
        assert EnrollPhase(c, code, rec, ref, acc).events == r2.events;
      }
    }
  }

  /** When the member fan-out raises, the exception leaves the class before
      the admin account is removed: the run ends with the admin still added. */
  lemma AdminKeptWhenFanOutRaises(c: Ctx, code: string, rec: ClassRecord, ref: CourseRef, acc: seq<Event>)
    requires Brackets(c, rec) && code in c.t.enroll.values
    requires c.api.respond(acc, AddTeacher(ref, c.admin)) == Success
    requires Members(c, code, acc + [Remote(AddTeacher(ref, c.admin))]).status.Crashed?
    ensures EnrollPhase(c, code, rec, ref, acc) == Members(c, code, acc + [Remote(AddTeacher(ref, c.admin))])
    ensures forall e :: e in EnrollPhase(c, code, rec, ref, acc).events[|acc|..] ==> !(e.Remote? && e.call.RemoveTeacher?)
  {
    var after := acc + [Remote(AddTeacher(ref, c.admin))];
    var r := Members(c, code, after);
    match MemberCalls(c, code)
    case Err(f) =>
      assert r.events[|acc|..] == [Remote(AddTeacher(ref, c.admin))];
    case Ok(calls) =>
      var n := |r.events| - |after|;
      var tail := r.events[|acc|..];
      assert tail == [Remote(AddTeacher(ref, c.admin))] + Remotes(calls[..n]);
      forall j | 0 <= j < |tail| ensures !(tail[j].Remote? && tail[j].call.RemoveTeacher?) {
        if j > 0 {
          assert tail[j] == Remote(calls[j - 1]);
          assert calls[j - 1] in calls;
        }
      }
  }

  /** One pass of the loop body for class `code`. */
  function PlanClass(c: Ctx, code: string, acc: seq<Event>): Run {
    match Lookup(c.t, code)
    case Err(f) => Run(acc, Crashed(f))
    case Ok((rec, ref)) =>
      var (r, ref') := if Creates(c.mode) && !c.opts.dryRun then CreatePhase(c, code, rec, ref, acc) else (Run(acc, Completed), ref);
      if r.status.Crashed? || !Enrolls(c.mode) then r
      else EnrollPhase(c, code, rec, ref', r.events)
  }

  function Step(c: Ctx): (string, seq<Event>) -> Run {
    (code, acc) => PlanClass(c, code, acc)
  }

  /** The run after `readData`, by mode. */
  function Execute(c: Ctx): Run {
    Dispatch(c, Step(c), Listing.ListManagement(c.v, c.listing))
  }

  /** The whole script: options, tables, then the run. */
  function Session(v: Variant, args: Args, admin: string, fs: string -> Option<seq<string>>, api: Api, listing: Listing.ListingApi): Run {
    var (mode, opts) := ParseManagement(args);
    match ReadData(Names(opts.classFile, opts.enrollFile, "users.csv"), fs)
    case Err(f) => Run([], Crashed(f))
    case Ok(t) => Execute(Ctx(v, mode, opts, admin, t, api, listing))
  }

  /** What the non-loop commands issue, in terms of the parsed options. */
  lemma ExecuteDispatch(c: Ctx)
    ensures c.mode == Info && !c.opts.dryRun ==> Execute(c).events == [Remote(GetCourse(c.opts.courseId.GetOr("")))]
    ensures c.mode == Remove ==> var ids := c.opts.courses.GetOr([]);
      |Execute(c).events| <= |ids|
      && forall i :: 0 <= i < |Execute(c).events| ==> Execute(c).events[i] == Remote(DeleteCourse(ids[i]))
    ensures c.mode == Lists ==> forall i :: 0 <= i < |Execute(c).events| ==> Execute(c).events[i].WriteReport?
  {
  }

  /** `readData` comes before everything: when a file is missing or has a
      short line the run is that failure and nothing else. Once the tables
      are loaded, `info` issues the single lookup of the course named on the
      command line, `remove` deletes the named courses in order, and `lists`
      issues no request of the kind modelled here. */
  lemma SessionDispatch(v: Variant, args: Args, admin: string, fs: string -> Option<seq<string>>, api: Api, listing: Listing.ListingApi)
    ensures var opts := ParseManagement(args).1;
      var d := ReadData(Names(opts.classFile, opts.enrollFile, "users.csv"), fs);
      var r := Session(v, args, admin, fs, api, listing);
      && (d.Err? ==> r == Run([], Crashed(d.failure)))
      && (d.Ok? && args.command == InfoCmd && !args.dryRun ==> r.events == [Remote(GetCourse(args.courseId))])
      && (d.Ok? && args.command == RemoveCmd ==>
            |r.events| <= |args.courses|
            && forall i :: 0 <= i < |r.events| ==> r.events[i] == Remote(DeleteCourse(args.courses[i])))
      && (d.Ok? && args.command == ListsCmd ==> forall i :: 0 <= i < |r.events| ==> r.events[i].WriteReport?)
  {
    var (mode, opts) := ParseManagement(args);
    var d := ReadData(Names(opts.classFile, opts.enrollFile, "users.csv"), fs);
    if d.Ok? {
      var c := Ctx(v, mode, opts, admin, d.value, api, listing);
      assert Session(v, args, admin, fs, api, listing) == Execute(c);
      ExecuteDispatch(c);
    }
  }

  /** A loop pass only grows the trace, and a class missing from the class
      table or the registry stops the run with KeyError before anything is
      issued for it. */
  lemma PlanClassExtends(c: Ctx, code: string, acc: seq<Event>)
    ensures acc <= PlanClass(c, code, acc).events
    ensures Lookup(c.t, code).Err? ==> PlanClass(c, code, acc) == Run(acc, Crashed(KeyError(code)))
  {
    match Lookup(c.t, code)
    case Err(_) =>
    case Ok((rec, ref)) =>
      var (r, ref') := if Creates(c.mode) && !c.opts.dryRun then CreatePhase(c, code, rec, ref, acc) else (Run(acc, Completed), ref);
      assert acc <= r.events;
      if !r.status.Crashed? && Enrolls(c.mode) {
        EnrollPhaseExtends(c, code, rec, ref', r.events);
      }
  }

  lemma EnrollPhaseExtends(c: Ctx, code: string, rec: ClassRecord, ref: CourseRef, acc: seq<Event>)
    ensures acc <= EnrollPhase(c, code, rec, ref, acc).events
  {
    if code in c.t.enroll.values {
      var r1 := if Brackets(c, rec) then Issue(c.v, c.api, AddTeacher(ref, c.admin), Unguarded, acc) else Run(acc, Completed);
      var r2 := if c.opts.dryRun then r1 else Members(c, code, r1.events);
      assert acc <= r1.events;
      assert r1.events <= r2.events;
    }
  }

  /** A completed create, enroll or all run found every class it visited in
      both the class table and the registry: in create and all modes every
      class of the class file is registered already, in enroll mode every
      registered class is in the class file. */
  lemma CompletedLoopFoundEveryClass(c: Ctx)
    requires c.mode in {Create, Enroll, Default}
    requires Execute(c).status.Completed?
    ensures forall i :: 0 <= i < |Targets(c.mode, c.t)| ==>
      Targets(c.mode, c.t)[i] in c.t.classes.values && Targets(c.mode, c.t)[i] in c.t.registry.values
    ensures Creates(c.mode) ==> forall i :: 0 <= i < |c.t.classes.keys| ==> c.t.classes.keys[i] in c.t.registry.values
    ensures c.mode == Enroll ==> forall i :: 0 <= i < |c.t.registry.keys| ==> c.t.registry.keys[i] in c.t.classes.values
  {
    var ok := (code: string) => code in c.t.classes.values && code in c.t.registry.values;
    forall code, a | Step(c)(code, a).status.Completed? ensures ok(code) {
      assert Step(c)(code, a) == PlanClass(c, code, a);
    }
    LoopPassedEach(Step(c), Targets(c.mode, c.t), [], ok);
  }

  lemma PlanClassDryRun(c: Ctx)
    requires c.opts.dryRun
    ensures forall code, acc :: Step(c)(code, acc).events == acc
  {
  }

  /** A dry run issues no request, appends no registry row and writes no
      report, whatever the command. */
  lemma DryRunIssuesNothing(v: Variant, args: Args, admin: string, fs: string -> Option<seq<string>>, api: Api, listing: Listing.ListingApi)
    requires args.dryRun
    ensures Session(v, args, admin, fs, api, listing).events == []
  {
    var (mode, opts) := ParseManagement(args);
    var r := ReadData(Names(opts.classFile, opts.enrollFile, "users.csv"), fs);
    if r.Ok? {
      var c := Ctx(v, mode, opts, admin, r.value, api, listing);
      PlanClassDryRun(c);
      DryDispatch(c, Step(c), Listing.ListManagement(c.v, c.listing));
    }
  }

  /** The registry rows a live create run appends for `codes`. */
  function ExpectedRows(c: Ctx, codes: seq<string>): (r: seq<seq<string>>)
    requires forall i :: 0 <= i < |codes| ==> codes[i] in c.t.classes.values
    ensures |r| == |codes|
  {
    seq(|codes|, i requires 0 <= i < |codes| =>
      var rec := c.t.classes.values[codes[i]];
      RegistryRow(codes[i], rec, c.api.created(CreateCall(codes[i], rec))))
  }

  lemma CreatePhaseRegisters(c: Ctx, code: string, rec: ClassRecord, ref: CourseRef, acc: seq<Event>)
    requires CreatePhase(c, code, rec, ref, acc).0.status.Completed?
    ensures Registered(CreatePhase(c, code, rec, ref, acc).0.events)
      == Registered(acc) + [RegistryRow(code, rec, c.api.created(CreateCall(code, rec)))]
  {
    CreatePhaseShape(c, code, rec, ref, acc);
    var row := RegistryRow(code, rec, c.api.created(CreateCall(code, rec)));
    var tail := [Remote(CreateCall(code, rec)), AppendRegistry(row)];
    RegisteredAppend(acc, tail);
    assert tail[..1] == [Remote(CreateCall(code, rec))];
    assert [Remote(CreateCall(code, rec))][..0] == [];
  }

  lemma EnrollRegistersNothing(c: Ctx, code: string, rec: ClassRecord, ref: CourseRef, acc: seq<Event>)
    requires !c.opts.dryRun
    requires EnrollPhase(c, code, rec, ref, acc).status.Completed?
    ensures Registered(EnrollPhase(c, code, rec, ref, acc).events) == Registered(acc)
  {
    var e := EnrollPhase(c, code, rec, ref, acc);
    EnrollPhaseShape(c, code, rec, ref, acc);
    if code in c.t.enroll.values {
      var bracket := TeacherEmail(rec) != c.admin && c.opts.foreignDomain;
      var pre := if bracket then [Remote(AddTeacher(ref, c.admin))] else [];
      var post := if bracket then [Remote(RemoveTeacher(ref, c.admin))] else [];
      var mid := Remotes(MemberCalls(c, code).value);
      assert e.events == acc + pre + mid + post;
      RegisteredIgnoresRemotes(acc, pre);
      RegisteredIgnoresRemotes(acc + pre, mid);
      RegisteredIgnoresRemotes(acc + pre + mid, post);
    } else {
      assert e.events == acc;
    }
  }

  lemma PlanClassRegisters(c: Ctx, code: string, acc: seq<Event>)
    requires Creates(c.mode) && !c.opts.dryRun && code in c.t.classes.values
    requires PlanClass(c, code, acc).status.Completed?
    ensures Registered(PlanClass(c, code, acc).events) == Registered(acc) + ExpectedRows(c, [code])
  {
    var (rec, ref) := Lookup(c.t, code).value;
    var (r, ref') := CreatePhase(c, code, rec, ref, acc);
    CreatePhaseRegisters(c, code, rec, ref, acc);
    if Enrolls(c.mode) {
      EnrollRegistersNothing(c, code, rec, ref', r.events);
    }
  }

  lemma ExpectedRowsCons(c: Ctx, codes: seq<string>)
    requires |codes| > 0
    requires forall i :: 0 <= i < |codes| ==> codes[i] in c.t.classes.values
    ensures forall i :: 0 <= i < |codes| - 1 ==> codes[1..][i] in c.t.classes.values
    ensures ExpectedRows(c, codes) == ExpectedRows(c, [codes[0]]) + ExpectedRows(c, codes[1..])
  {
    assert forall i :: 0 <= i < |codes| - 1 ==> codes[1..][i] == codes[i + 1];
  }

  lemma {:induction false} LoopRegisters(c: Ctx, codes: seq<string>, acc: seq<Event>)
    requires Creates(c.mode) && !c.opts.dryRun
    requires forall i :: 0 <= i < |codes| ==> codes[i] in c.t.classes.values
    requires ForEachClass(Step(c), codes, acc).status.Completed?
    ensures Registered(ForEachClass(Step(c), codes, acc).events) == Registered(acc) + ExpectedRows(c, codes)
    decreases |codes|
  {
    if |codes| > 0 {
      var r := PlanClass(c, codes[0], acc);
      assert Step(c)(codes[0], acc) == r;
      assert ForEachClass(Step(c), codes, acc) == ForEachClass(Step(c), codes[1..], r.events);
      PlanClassRegisters(c, codes[0], acc);
      ExpectedRowsCons(c, codes);
      LoopRegisters(c, codes[1..], r.events);
      ConcatAssoc(Registered(acc), ExpectedRows(c, [codes[0]]), ExpectedRows(c, codes[1..]));
    } else {
      ConcatNil(Registered(acc), ExpectedRows(c, codes));
    }
  }

  /** A completed live create run appends exactly one registry row per class
      of the class file, in class-file order, each
      `[classCode, courseId, subject(classCode), teacher, enrollmentCode]`. */
  lemma CreateRegistersEachClass(c: Ctx)
    requires Creates(c.mode) && !c.opts.dryRun && Valid(c.t.classes)
    requires Execute(c).status.Completed?
    ensures forall i :: 0 <= i < |c.t.classes.keys| ==> c.t.classes.keys[i] in c.t.classes.values
    ensures Registered(Execute(c).events) == ExpectedRows(c, c.t.classes.keys)
  {
    LoopRegisters(c, c.t.classes.keys, []);
  }

  /** Kept as written: the course-id lookup precedes creation, so creating a
      class the registry does not list yet raises KeyError before any
      request. */
  lemma UnregisteredClassStopsCreate(c: Ctx)
    requires Creates(c.mode) && |c.t.classes.keys| > 0
    requires c.t.classes.keys[0] in c.t.classes.values && c.t.classes.keys[0] !in c.t.registry.values
    ensures Execute(c) == Run([], Crashed(KeyError(c.t.classes.keys[0])))
  {
  }
}

=== FILE: plan.dfy ===
/** The parts of the `__main__` loop both scripts share: what is looked up
    for each class, how a course is created and registered, how a member
    work list is built, and the loop over the class codes. */
module Plan {
  import opened Common
  import opened Roster
  import opened Remote
  import opened Cli
  import Listing

  /** Appended to a teacher id to form the teacher's account. */
  const Domain := "@fuk.kindai.ac.jp"

  function TeacherEmail(rec: ClassRecord): string {
    rec.teacher + Domain
  }

  /** The course name: subject followed by the class code in parentheses. */
  function CourseName(code: string, rec: ClassRecord): string {
    rec.subject + "(" + code + ")"
  }

  /** Everything a run depends on besides the class being processed. */
  datatype Ctx = Ctx(
    v: Variant,
    mode: Mode,
    opts: Options,
    admin: string,
    t: Tables,
    api: Api,
    listing: Listing.ListingApi)

  predicate Creates(m: Mode) {
    m == Create || m == Default
  }

  predicate Enrolls(m: Mode) {
    m == Enroll || m == Default
  }

  /** The class codes the loop visits: the class file's when creating, the
      registry's in `enroll` mode. */
  function Targets(mode: Mode, t: Tables): seq<string> {
    if Creates(mode) then t.classes.keys else t.registry.keys
  }

  /** The lookups at the head of the loop body: the class record, and the
      course id from the registry (an empty id becomes 0). A class missing
      from either table raises KeyError, including a class the run is about
      to create. */
  function Lookup(t: Tables, code: string): (r: Result<(ClassRecord, CourseRef)>)
    ensures r.Ok? <==> code in t.classes.values && code in t.registry.values
    ensures r.Err? ==> r.failure == KeyError(code)
    ensures r.Ok? ==> r.value.0 == t.classes.values[code]
    ensures r.Ok? ==> (r.value.1 == Zero <==> t.registry.values[code] == "")
    ensures r.Ok? && r.value.1.Id? ==> r.value.1.id == t.registry.values[code]
  {
    if code !in t.classes.values then Err(KeyError(code))
    else if code !in t.registry.values then Err(KeyError(code))
    else
      var id := t.registry.values[code];
      Ok((t.classes.values[code], if id == "" then Zero else Id(id)))
  }

  function CreateCall(code: string, rec: ClassRecord): Call {
    CreateCourse(CourseName(code, rec), rec.section, TeacherEmail(rec))
  }

  /** The row appended to the registry after a creation. */
  function RegistryRow(code: string, rec: ClassRecord, nc: NewCourse): seq<string> {
    [code, nc.id, CourseName(code, rec), TeacherEmail(rec), nc.enrollmentCode]
  }

  /** The create step of a class (live runs only): create the course owned
      by the class teacher, then append its registry row; the new id is the
      course id for the rest of the class. */
  function CreatePhase(c: Ctx, code: string, rec: ClassRecord, ref: CourseRef, acc: seq<Event>): (Run, CourseRef) {
    var call := CreateCall(code, rec);
    var r := Issue(c.v, c.api, call, Unguarded, acc);
    if r.status.Crashed? then (r, ref)
    else
      var nc := c.api.created(call);
      (Run(r.events + [AppendRegistry(RegistryRow(code, rec, nc))], Completed), Id(nc.id))
  }

  /** A live create step either crashes right after the creation request or
      issues it and appends exactly the registry row of the new course. */
  lemma CreatePhaseShape(c: Ctx, code: string, rec: ClassRecord, ref: CourseRef, acc: seq<Event>)
    ensures var (r, ref') := CreatePhase(c, code, rec, ref, acc);
      var nc := c.api.created(CreateCall(code, rec));
      && (r.status.Completed? ==>
            && r.events == acc + [Remote(CreateCall(code, rec)), AppendRegistry([code, nc.id, rec.subject + "(" + code + ")", rec.teacher + Domain, nc.enrollmentCode])]
            && ref' == Id(nc.id))
      && (r.status.Crashed? ==>
            && r.events == acc + [Remote(CreateCall(code, rec))]
            && c.api.respond(acc, CreateCall(code, rec)) == HttpError(r.status.failure.code))
  {
  }

  /** The rows appended to the registry in a trace. */
  function Registered(events: seq<Event>): (r: seq<seq<string>>)
    ensures |r| <= |events|
  {
    if |events| == 0 then []
    else
      var last := events[|events| - 1];
      Registered(events[..|events| - 1]) + (if last.AppendRegistry? then [last.row] else [])
  }

  lemma {:induction false} RegisteredAppend(a: seq<Event>, b: seq<Event>)
    ensures Registered(a + b) == Registered(a) + Registered(b)
    decreases |b|
  {
    if |b| == 0 {
      assert a + b == a;
      ConcatNil(Registered(a), Registered(b));
    } else {
      var last := b[|b| - 1];
      RegisteredAppend(a, b[..|b| - 1]);
      assert (a + b)[..|a + b| - 1] == a + b[..|b| - 1];
      assert (a + b)[|a + b| - 1] == last;
      ConcatAssoc(Registered(a), Registered(b[..|b| - 1]), if last.AppendRegistry? then [last.row] else []);
    }
  }

  lemma {:induction false} RegisteredIgnoresRemotes(acc: seq<Event>, rest: seq<Event>)
    requires forall i :: 0 <= i < |rest| ==> rest[i].Remote?
    ensures Registered(acc + rest) == Registered(acc)
    decreases |rest|
  {
    if |rest| == 0 {
      assert acc + rest == acc;
    } else {
      RegisteredIgnoresRemotes(acc, rest[..|rest| - 1]);
      assert (acc + rest)[..|acc + rest| - 1] == acc + rest[..|rest| - 1];
    }
  }

  /** Build one request per user in `users`, in order, by looking up each
      user's address; the first unknown user raises KeyError before any
      request is issued. */
  function BuildCalls(users: seq<string>, emails: map<string, string>, make: string -> Call): (r: Result<seq<Call>>)
    ensures r.Ok? <==> forall i :: 0 <= i < |users| ==> users[i] in emails
    ensures r.Ok? ==> |r.value| == |users|
    ensures r.Ok? ==> forall i :: 0 <= i < |users| ==> r.value[i] == make(emails[users[i]])
    ensures r.Err? ==> exists j :: (0 <= j < |users| && users[j] !in emails && r.failure == KeyError(users[j])
      && forall k :: 0 <= k < j ==> users[k] in emails)
  {
    if |users| == 0 then Ok([])
    else if users[0] !in emails then Err(KeyError(users[0]))
    else
      match BuildCalls(users[1..], emails, make)
      case Err(f) =>
        ghost var j :| 0 <= j < |users| - 1 && users[1..][j] !in emails && f == KeyError(users[1..][j])
          && forall k :: 0 <= k < j ==> users[1..][k] in emails;
        assert forall k :: 1 <= k < j + 1 ==> users[k] == users[1..][k - 1];
        Err(f)
      case Ok(rest) =>
        assert forall k :: 1 <= k < |users| ==> users[k] == users[1..][k - 1];
        Ok([make(emails[users[0]])] + rest)
  }

  /** Run `step` for each class code in turn; a crash ends the loop. */
  function ForEachClass(step: (string, seq<Event>) -> Run, codes: seq<string>, acc: seq<Event>): Run
    decreases |codes|
  {
    if |codes| == 0 then Run(acc, Completed)
    else
      var r := step(codes[0], acc);
      if r.status.Crashed? then r else ForEachClass(step, codes[1..], r.events)
  }

  /** A loop that completed ran every code through a step that completes
      only for codes meeting `ok`. */
  lemma {:induction false} LoopPassedEach(step: (string, seq<Event>) -> Run, codes: seq<string>, acc: seq<Event>, ok: string -> bool)
    requires forall code, a :: step(code, a).status.Completed? ==> ok(code)
    requires ForEachClass(step, codes, acc).status.Completed?
    ensures forall i :: 0 <= i < |codes| ==> ok(codes[i])
    decreases |codes|
  {
    if |codes| > 0 {
      var r := step(codes[0], acc);
      LoopPassedEach(step, codes[1..], r.events, ok);
      assert forall i :: 1 <= i < |codes| ==> codes[i] == codes[1..][i - 1];
    }
  }

  /** A step that never adds an event makes a loop that never adds one. */
  lemma {:induction false} QuietLoop(step: (string, seq<Event>) -> Run, codes: seq<string>, acc: seq<Event>)
    requires forall code, a :: step(code, a).events == a
    ensures ForEachClass(step, codes, acc).events == acc
    decreases |codes|
  {
    if |codes| > 0 {
      QuietLoop(step, codes[1..], step(codes[0], acc).events);
    }
  }

  /** No event of `events` is `bad`. */
  ghost predicate NoneOf(events: seq<Event>, bad: Event -> bool) {
    forall i :: 0 <= i < |events| ==> !bad(events[i])
  }

  /** A step that never adds a `bad` event makes a loop that never adds one. */
  lemma {:induction false} LoopAvoids(step: (string, seq<Event>) -> Run, codes: seq<string>, acc: seq<Event>, bad: Event -> bool)
    requires forall code, a :: NoneOf(a, bad) ==> NoneOf(step(code, a).events, bad)
    requires NoneOf(acc, bad)
    ensures NoneOf(ForEachClass(step, codes, acc).events, bad)
    decreases |codes|
  {
    if |codes| > 0 {
      LoopAvoids(step, codes[1..], step(codes[0], acc).events, bad);
    }
  }

  /** The dispatch after `readData` that both scripts share: `remove`,
      `lists` and `info` run their command and exit; every other mode runs
      the class loop with the script's `step`. `listed` is the script's own
      listing. */
  function Dispatch(c: Ctx, step: (string, seq<Event>) -> Run, listed: Listing.Listed): Run {
    match c.mode
    case Remove => Removal(c)
    case Lists => ListingRun(c, listed)
    case Info => Information(c)
    case _ => ForEachClass(step, Targets(c.mode, c.t), [])
  }

  /** On a dry run, a class step that adds no event leaves the whole
      dispatch without events. */
  lemma DryDispatch(c: Ctx, step: (string, seq<Event>) -> Run, listed: Listing.Listed)
    requires c.opts.dryRun
    requires forall code, a :: step(code, a).events == a
    ensures Dispatch(c, step, listed).events == []
  {
    if c.mode !in {Remove, Lists, Info} {
      QuietLoop(step, Targets(c.mode, c.t), []);
    }
  }

  /** The `remove` command: delete each listed course through the teardown
      wrapper. A dry run has no service object, so the first deletion raises
      NameError. */
  function Removal(c: Ctx): (r: Run)
    ensures var ids := c.opts.courses.GetOr([]);
      && |r.events| <= |ids|
      && (forall i :: 0 <= i < |r.events| ==> r.events[i] == Remote(DeleteCourse(ids[i])))
      && (r.status.Completed? ==> |r.events| == |ids|)
      && (|ids| == 0 ==> r.status.Completed?)
      && (|ids| > 0 && c.opts.dryRun ==> r == Run([], Crashed(NameError("serviceClassroom"))))
      && (|ids| > 0 && !c.opts.dryRun ==> |r.events| > 0)
  {
    var ids := c.opts.courses.GetOr([]);
    if |ids| == 0 then Run([], Completed)
    else if c.opts.dryRun then Run([], Crashed(NameError("serviceClassroom")))
    else
      var calls := DeleteCalls(ids);
      var r := FanOut(c.v, c.api, calls, Teardown, []);
      var n := |r.events|;
      assert r.events == Remotes(calls[..n]);
      assert forall i :: 0 <= i < n ==> r.events[i] == Remote(calls[..n][i]);
      r
  }

  function DeleteCalls(ids: seq<string>): (r: seq<Call>)
    ensures |r| == |ids|
    ensures forall i :: 0 <= i < |ids| ==> r[i] == DeleteCourse(ids[i])
  {
    seq(|ids|, i requires 0 <= i < |ids| => DeleteCourse(ids[i]))
  }

  /** Removing courses that are already gone (NOT_FOUND) or removable
      deletes every listed course and completes. */
  lemma RemovalToleratesMissing(c: Ctx)
    requires c.opts.courses.Some? && |c.opts.courses.value| > 0 && !c.opts.dryRun
    requires forall hist: seq<Event>, i :: 0 <= i < |c.opts.courses.value| ==>
      c.api.respond(hist, DeleteCourse(c.opts.courses.value[i])) in {Success, HttpError(404)}
    ensures Removal(c) == Run(Remotes(DeleteCalls(c.opts.courses.value)), Completed)
  {
    var ids := c.opts.courses.value;
    var calls := DeleteCalls(ids);
    forall hist: seq<Event>, i | 0 <= i < |calls|
      ensures !Classify(c.v, Teardown, c.api.respond(hist, calls[i])).Fatal?
    {
      assert calls[i] == DeleteCourse(ids[i]);
    }
    NonFatalBatchCompletes(c.v, c.api, calls, Teardown, []);
  }

  /** The `info` command: one unguarded `courses().get`. */
  function Information(c: Ctx): (r: Run)
    ensures c.opts.dryRun ==> r == Run([], Crashed(NameError("serviceClassroom")))
    ensures !c.opts.dryRun ==> r.events == [Remote(GetCourse(c.opts.courseId.GetOr("")))]
    ensures !c.opts.dryRun ==>
      var resp := c.api.respond([], GetCourse(c.opts.courseId.GetOr("")));
      (r.status.Completed? <==> resp.Success?) && (r.status.Crashed? ==> r.status.failure == Raised(resp.code))
  {
    if c.opts.dryRun then Run([], Crashed(NameError("serviceClassroom")))
    else Issue(c.v, c.api, GetCourse(c.opts.courseId.GetOr("")), Unguarded, [])
  }

  /** A listing as a trace: the report file, when one was opened. */
  function ListingRun(c: Ctx, l: Listing.Listed): Run {
    if c.opts.dryRun then Run([], Crashed(NameError("serviceClassroom")))
    else Run(if l.report.Some? then [WriteReport(l.report.value)] else [], l.status)
  }
}

=== FILE: pydict.dfy ===
/** Python's `dict` with string keys, as the scripts use it: assignment
    overwrites, iteration follows first insertion. */
module PyDict {

  /** Keys in insertion order, and the value each key holds. */
  datatype Dict<V> = Dict(keys: seq<string>, values: map<string, V>)

  predicate Distinct(s: seq<string>) {
    forall i, j :: 0 <= i < j < |s| ==> s[i] != s[j]
  }

  /** The key sequence lists exactly the keys of the map, once each. */
  ghost predicate Valid<V>(d: Dict<V>) {
    && Distinct(d.keys)
    && (forall k :: k in d.values <==> k in d.keys)
  }

  function Empty<V>(): (d: Dict<V>)
    ensures Valid(d) && d.keys == []
  {
    Dict([], map[])
  }

  /** `d[k] = v`: a key already present keeps its place, a new one goes last. */
  function Set<V>(d: Dict<V>, k: string, v: V): (r: Dict<V>)
    requires Valid(d)
    ensures Valid(r)
    ensures r.values == d.values[k := v]
  {
    if k in d.values then Dict(d.keys, d.values[k := v])
    else Dict(d.keys + [k], d.values[k := v])
  }

  /** The elements of `s` in order of first occurrence. */
  function Dedup(s: seq<string>): (r: seq<string>)
    ensures Distinct(r)
    ensures forall x :: x in r <==> x in s
  {
    if |s| == 0 then []
    else
      var p := Dedup(s[..|s| - 1]);
      assert forall x :: x in s <==> x in s[..|s| - 1] || x == s[|s| - 1];
      if s[|s| - 1] in p then p else p + [s[|s| - 1]]
  }

  /** A dict whose keys are the first occurrences of `s` keeps that shape
      when `k` is assigned: its keys become those of `s + [k]`. */
  lemma SetKeys<V>(d: Dict<V>, s: seq<string>, k: string, v: V)
    requires Valid(d) && d.keys == Dedup(s)
    ensures Set(d, k, v).keys == Dedup(s + [k])
  {
    assert (s + [k])[..|s|] == s;
  }
}

=== FILE: remote.dfy ===
/** The Google Classroom API as the scripts see it: requests, the status a
    request comes back with, and how each wrapper classifies that status.
    The service itself is an oracle; a run is the trace of what was issued. */
module Remote {
  import opened Common

  datatype Role = Student | Teacher

  /** A course id as the main loop holds it: a string, or the integer 0 the
      loop substitutes when the registry's id field is empty. */
  datatype CourseRef = Id(id: string) | Zero

  /** One request to the service. */
  datatype Call =
    | CreateCourse(name: string, section: string, ownerId: string)  // courses().create
    | DeleteCourse(courseId: string)                                // courses().delete
    | GetCourse(courseId: string)                                   // courses().get
    | AddTeacher(course: CourseRef, userId: string)                 // courses().teachers().create
    | RemoveTeacher(course: CourseRef, userId: string)              // courses().teachers().delete
    | AddStudent(course: CourseRef, userId: string)                 // courses().students().create
    | Invite(course: CourseRef, userId: string, role: Role)         // invitations().create

  /** `execute()` either returns or raises HttpError with a status code. */
  datatype Response = Success | HttpError(code: int)

  /** What a wrapper makes of a response: success, an expected error it
      prints and swallows, or an exception that leaves the wrapper. */
  datatype Outcome = Done | Benign | Fatal(failure: Failure)

  /** `addAdminUser`, `createClassroom`, `infoClassroom`: no handler, so
      every error propagates. */
  function UnguardedOutcome(resp: Response): (o: Outcome)
    ensures o != Benign
    ensures o == Done <==> resp.Success?
    ensures o.Fatal? ==> o.failure == Raised(resp.code)
  {
    match resp
    case Success => Done
    case HttpError(c) => Fatal(Raised(c))
  }

  /** `deleteAdminUser` and `deleteClassroom`: NOT_FOUND means the thing is
      already gone. */
  function TeardownOutcome(resp: Response): (o: Outcome)
    ensures o == Done <==> resp.Success?
    ensures o == Benign <==> resp == HttpError(404)
    ensures o.Fatal? ==> o.failure == Raised(resp.code)
  {
    match resp
    case Success => Done
    case HttpError(c) => if c == 404 then Benign else Fatal(Raised(c))
  }

  /** `inviteUsersProc` and `enrollStudent`: CONFLICT means the user is
      already a member or already invited. */
  function InvitationOutcome(resp: Response): (o: Outcome)
    ensures o == Done <==> resp.Success?
    ensures o == Benign <==> resp == HttpError(409)
    ensures o.Fatal? ==> o.failure == Raised(resp.code)
  {
    match resp
    case Success => Done
    case HttpError(c) => if c == 409 then Benign else Fatal(Raised(c))
  }

  /** `createUsersProc` and `enrollStudent2`: PERMISSION_DENIED is printed
      and swallowed; CONFLICT is meant to be too, but as written its message
      reads `.get("profile")` from the request body, which has no such key,
      and the following `.get` on None raises AttributeError. */
  function DirectEnrollOutcome(v: Variant, resp: Response): (o: Outcome)
    ensures o == Done <==> resp.Success?
    ensures o == Benign <==> resp == HttpError(403) || (v == Intended && resp == HttpError(409))
    ensures o.Fatal? && resp != HttpError(409) ==> o.failure == Raised(resp.code)
    ensures v == AsWritten && resp == HttpError(409) ==> o == Fatal(AttributeError)
  {
    match resp
    case Success => Done
    case HttpError(c) =>
      if c == 409 then (match v case AsWritten => Fatal(AttributeError) case Intended => Benign)
      else if c == 403 then Benign
      else Fatal(Raised(c))
  }

  /** Which wrapper a request goes through. */
  datatype Handler = Unguarded | Teardown | Invitation | DirectEnroll

  function Classify(v: Variant, h: Handler, resp: Response): Outcome {
    match h
    case Unguarded => UnguardedOutcome(resp)
    case Teardown => TeardownOutcome(resp)
    case Invitation => InvitationOutcome(resp)
    case DirectEnroll => DirectEnrollOutcome(v, resp)
  }

  /** The reconciliation policy: the status codes each wrapper is meant to
      tolerate. */
  function Tolerated(h: Handler): set<int> {
    match h
    case Unguarded => {}
    case Teardown => {404}
    case Invitation => {409}
    case DirectEnroll => {403, 409}
  }

  /** With the intended fixes every wrapper tolerates exactly its policy's
      codes; as written, direct enrollment also dies on CONFLICT. */
  lemma ClassifyFollowsPolicy(v: Variant, h: Handler, code: int)
    ensures Classify(Intended, h, HttpError(code)).Fatal? <==> code !in Tolerated(h)
    ensures Classify(v, h, Success) == Done
    ensures Classify(AsWritten, h, HttpError(code)).Fatal?
        <==> code !in Tolerated(h) || (h == DirectEnroll && code == 409)
  {
  }

  /** What the script did: a request issued, a row appended to the course
      registry, or a report file written. */
  datatype Event =
    | Remote(call: Call)
    | AppendRegistry(row: seq<string>)
    | WriteReport(rows: seq<seq<string>>)

  /** The id and enrollment code the service assigns a created course. */
  datatype NewCourse = NewCourse(id: string, enrollmentCode: string)

  /** The service: the status of a request given everything issued before
      it, and what a course creation returns. */
  datatype Api = Api(respond: (seq<Event>, Call) -> Response, created: Call -> NewCourse)

  /** A trace and how it ended. */
  datatype Run = Run(events: seq<Event>, status: Status)

  function Remotes(calls: seq<Call>): (r: seq<Event>)
    ensures |r| == |calls|
    ensures forall i :: 0 <= i < |calls| ==> r[i] == Remote(calls[i])
  {
    seq(|calls|, i requires 0 <= i < |calls| => Remote(calls[i]))
  }

  /** Issue one request through wrapper `h` after the events `acc`. */
  function Issue(v: Variant, api: Api, call: Call, h: Handler, acc: seq<Event>): Run {
    var events := acc + [Remote(call)];
    match Classify(v, h, api.respond(acc, call))
    case Fatal(f) => Run(events, Crashed(f))
    case _ => Run(events, Completed)
  }

  /** `calls[i]` was answered, after the events before it, with a status
      wrapper `h` does not treat as fatal. */
  ghost predicate Survived(v: Variant, api: Api, h: Handler, events: seq<Event>, i: nat)
    requires i < |events| && events[i].Remote?
  {
    !Classify(v, h, api.respond(events[..i], events[i].call)).Fatal?
  }

  /** The fan-out `pool.istarmap(proc, items)`, one item after the other: an
      item whose error the wrapper re-raises ends the run there. The trace
      grows by the requests of a prefix of `calls`: all of them when the run
      completes, at least one when it crashes. */
  function FanOut(v: Variant, api: Api, calls: seq<Call>, h: Handler, acc: seq<Event>): (r: Run)
    ensures |acc| <= |r.events| <= |acc| + |calls|
    ensures r.events == acc + Remotes(calls[..|r.events| - |acc|])
    ensures r.status.Completed? ==> |r.events| == |acc| + |calls|
    ensures r.status.Crashed? ==> |r.events| > |acc|
    decreases |calls|
  {
    if |calls| == 0 then Run(acc, Completed)
    else
      var step := Issue(v, api, calls[0], h, acc);
      if step.status.Crashed? then
        assert calls[..1] == [calls[0]];
        step
      else
        var r := FanOut(v, api, calls[1..], h, step.events);
        var done := calls[1..][..|r.events| - |step.events|];
        assert calls[..|r.events| - |acc|] == [calls[0]] + done;
        RemotesCons(calls[0], done);
        ConcatAssoc(acc, [Remote(calls[0])], Remotes(done));
        r
  }

  lemma RemotesCons(c: Call, t: seq<Call>)
    ensures Remotes([c] + t) == [Remote(c)] + Remotes(t)
  {
    var a, b := Remotes([c] + t), [Remote(c)] + Remotes(t);
    forall i | 0 <= i < |a| ensures a[i] == b[i] {
      if i > 0 { assert ([c] + t)[i] == t[i - 1]; }
    }
  }

  /** Every request of a fan-out was answered with a status its wrapper
      tolerates, except the last one of a crashed run. */
  lemma {:induction false} FanOutSurvivors(v: Variant, api: Api, calls: seq<Call>, h: Handler, acc: seq<Event>, i: nat)
    requires var r := FanOut(v, api, calls, h, acc);
      |acc| <= i < |r.events| && (r.status.Completed? || i < |r.events| - 1)
    ensures Survived(v, api, h, FanOut(v, api, calls, h, acc).events, i)
    decreases |calls|
  {
    var r := FanOut(v, api, calls, h, acc);
    var step := Issue(v, api, calls[0], h, acc);
    assert step.events == acc + [Remote(calls[0])];
    if step.status.Completed? {
      var rest := FanOut(v, api, calls[1..], h, step.events);
      assert r == rest;
      if i == |acc| {
        assert r.events[..|acc|] == acc;
        assert r.events[|acc|] == Remote(calls[0]);
      } else {
        FanOutSurvivors(v, api, calls[1..], h, step.events, i);
      }
    }
  }

  /** Run `r` crashed on its last event, a request whose status wrapper `h`
      classifies as that very failure. */
  ghost predicate CrashedBy(v: Variant, api: Api, h: Handler, r: Run) {
    && r.status.Crashed?
    && |r.events| > 0
    && r.events[|r.events| - 1].Remote?
    && Classify(v, h, api.respond(r.events[..|r.events| - 1], r.events[|r.events| - 1].call)) == Fatal(r.status.failure)
  }

  /** A crashed fan-out ends with the request whose classification is the
      crash. */
  lemma {:induction false} FanOutCrash(v: Variant, api: Api, calls: seq<Call>, h: Handler, acc: seq<Event>)
    requires FanOut(v, api, calls, h, acc).status.Crashed?
    ensures CrashedBy(v, api, h, FanOut(v, api, calls, h, acc))
    decreases |calls|
  {
    var r := FanOut(v, api, calls, h, acc);
    var step := Issue(v, api, calls[0], h, acc);
    if step.status.Completed? {
      var rest := FanOut(v, api, calls[1..], h, step.events);
      assert r == rest;
      FanOutCrash(v, api, calls[1..], h, step.events);
    } else {
      assert r == step;
      assert step.events[..|acc|] == acc;
    }
  }

  /** A batch none of whose requests gets an answer its wrapper re-raises
      issues every request, in order, and completes. */
  lemma {:induction false} NonFatalBatchCompletes(v: Variant, api: Api, calls: seq<Call>, h: Handler, acc: seq<Event>)
    requires forall hist: seq<Event>, i :: 0 <= i < |calls| ==> !Classify(v, h, api.respond(hist, calls[i])).Fatal?
    ensures FanOut(v, api, calls, h, acc) == Run(acc + Remotes(calls), Completed)
    decreases |calls|
  {
    if |calls| > 0 {
      var step := Issue(v, api, calls[0], h, acc);
      forall hist: seq<Event>, i | 0 <= i < |calls| - 1
        ensures !Classify(v, h, api.respond(hist, calls[1..][i])).Fatal?
      {
        assert calls[1..][i] == calls[i + 1];
      }
      NonFatalBatchCompletes(v, api, calls[1..], h, step.events);
      assert calls == [calls[0]] + calls[1..];
      RemotesCons(calls[0], calls[1..]);
      ConcatAssoc(acc, [Remote(calls[0])], Remotes(calls[1..]));
    }
  }

  /** Idempotent re-run: when the service answers every request of a batch
      with success or with a code the wrapper's policy tolerates (CONFLICT
      for members that are already enrolled or invited), the batch issues
      every request and completes. */
  lemma ToleratedBatchCompletes(v: Variant, api: Api, calls: seq<Call>, h: Handler, acc: seq<Event>)
    requires v == Intended || h != DirectEnroll
    requires forall hist: seq<Event>, i :: 0 <= i < |calls| ==>
      api.respond(hist, calls[i]).Success? || api.respond(hist, calls[i]).code in Tolerated(h)
    ensures FanOut(v, api, calls, h, acc) == Run(acc + Remotes(calls), Completed)
  {
    forall hist: seq<Event>, i | 0 <= i < |calls|
      ensures !Classify(v, h, api.respond(hist, calls[i])).Fatal?
    {
      var resp := api.respond(hist, calls[i]);
      if resp.HttpError? {
        ClassifyFollowsPolicy(v, h, resp.code);
      }
    }
    NonFatalBatchCompletes(v, api, calls, h, acc);
  }

  /** The events before request `j` of a batch issued after `acc`. */
  function Before(acc: seq<Event>, calls: seq<Call>, j: nat): seq<Event>
    requires j <= |calls|
  {
    acc + Remotes(calls[..j])
  }

  /** Issuing the first request moves it from the batch into the history. */
  lemma BeforeShift(acc: seq<Event>, calls: seq<Call>, j: nat)
    requires j < |calls|
    ensures Before(acc + [Remote(calls[0])], calls[1..], j) == Before(acc, calls, j + 1)
  {
    assert calls[..j + 1] == [calls[0]] + calls[1..][..j];
    RemotesCons(calls[0], calls[1..][..j]);
    ConcatAssoc(acc, [Remote(calls[0])], Remotes(calls[1..][..j]));
  }

  /** As written, a re-run of a direct-enrollment batch dies on its first
      CONFLICT, wherever it falls: every earlier request went through, and
      the CONFLICT handler raises AttributeError. */
  lemma {:induction false} AsWrittenConflictCrashes(api: Api, calls: seq<Call>, acc: seq<Event>, k: nat)
    requires k < |calls|
    requires forall j :: 0 <= j < k ==> !Classify(AsWritten, DirectEnroll, api.respond(Before(acc, calls, j), calls[j])).Fatal?
    requires api.respond(Before(acc, calls, k), calls[k]) == HttpError(409)
    ensures FanOut(AsWritten, api, calls, DirectEnroll, acc) == Run(Before(acc, calls, k + 1), Crashed(AttributeError))
    decreases k
  {
    assert Before(acc, calls, 0) == acc by { assert calls[..0] == []; }
    var step := Issue(AsWritten, api, calls[0], DirectEnroll, acc);
    if k == 0 {
      assert calls[..1] == [calls[0]];
      assert step == Run(acc + [Remote(calls[0])], Crashed(AttributeError));
    } else {
      assert step.status.Completed?;
      var acc' := acc + [Remote(calls[0])];
      forall j | 0 <= j < k - 1
        ensures !Classify(AsWritten, DirectEnroll, api.respond(Before(acc', calls[1..], j), calls[1..][j])).Fatal?
      {
        BeforeShift(acc, calls, j);
        assert calls[1..][j] == calls[j + 1];
      }
      BeforeShift(acc, calls, k - 1);
      assert calls[1..][k - 1] == calls[k];
      AsWrittenConflictCrashes(api, calls[1..], acc', k - 1);
      BeforeShift(acc, calls, k);
    }
  }
}

=== FILE: roster.dfy ===
/** `readData` of both scripts: the four CSV files become lookup tables.
    Each line is split on commas; a line with too few fields raises
    IndexError; a repeated key overwrites the earlier value but keeps its
    place in iteration order; enrollment rows are grouped per class code. */
module Roster {
  import opened Common
  import opened PyDict
  import Csv

  /** The fields of one CSV line. */
  type Row = seq<string>

  /** Field `i` of a row, or "" when the row is shorter. */
  function Field(row: Row, i: nat): string {
    if i < |row| then row[i] else ""
  }

  /** Field `i` of every row. */
  function Column(rows: seq<Row>, i: nat): (r: seq<string>)
    ensures |r| == |rows|
    ensures forall j :: 0 <= j < |rows| ==> r[j] == Field(rows[j], i)
  {
    seq(|rows|, j requires 0 <= j < |rows| => Field(rows[j], i))
  }

  /** Every row has at least `arity` fields. */
  predicate HasArity(rows: seq<Row>, arity: nat) {
    forall i :: 0 <= i < |rows| ==> |rows[i]| >= arity
  }

  /** `f` is the IndexError raised at the first row of `file` that has fewer
      than `arity` fields. */
  predicate FirstShortRow(rows: seq<Row>, arity: nat, file: string, f: Failure) {
    && f.ShortLine? && f.file == file && f.row < |rows|
    && |rows[f.row]| < arity
    && HasArity(rows[..f.row], arity)
  }

  lemma PrefixFacts(rows: seq<Row>, arity: nat, i: nat)
    requires |rows| > 0
    ensures HasArity(rows, arity) <==> HasArity(rows[..|rows| - 1], arity) && |rows[|rows| - 1]| >= arity
    ensures Column(rows, i) == Column(rows[..|rows| - 1], i) + [Field(rows[|rows| - 1], i)]
  {
    var p := rows[..|rows| - 1];
    if HasArity(p, arity) && |rows[|rows| - 1]| >= arity {
      forall j | 0 <= j < |rows| ensures |rows[j]| >= arity {
        if j < |rows| - 1 { assert rows[j] == p[j]; }
      }
    }
  }

  /** The first short row of a prefix is the first short row of the whole. */
  lemma ShortRowExtends(rows: seq<Row>, arity: nat, file: string, f: Failure)
    requires |rows| > 0 && FirstShortRow(rows[..|rows| - 1], arity, file, f)
    ensures FirstShortRow(rows, arity, file, f)
  {
    var p := rows[..|rows| - 1];
    assert rows[..f.row] == p[..f.row] && rows[f.row] == p[f.row];
  }

  /** The loop `for line in f: d[line[0]] = value(line)` of a file whose
      lines must have `arity` fields. */
  function LoadLastWins<V>(rows: seq<Row>, arity: nat, value: Row -> V, file: string): (r: Result<Dict<V>>)
    requires arity >= 1
    ensures r.Ok? <==> HasArity(rows, arity)
    ensures r.Err? ==> FirstShortRow(rows, arity, file, r.failure)
    ensures r.Ok? ==> Valid(r.value) && r.value.keys == Dedup(Column(rows, 0))
    decreases |rows|
  {
    if |rows| == 0 then Ok(Empty())
    else
      var p := rows[..|rows| - 1];
      var row := rows[|rows| - 1];
      PrefixFacts(rows, arity, 0);
      match LoadLastWins(p, arity, value, file)
      case Err(f) =>
        ShortRowExtends(rows, arity, file, f);
        Err(f)
      case Ok(d) =>
        if |row| < arity then
          assert rows[..|rows| - 1] == p;
          Err(ShortLine(file, |rows| - 1))
        else
          assert Field(row, 0) == row[0];
          SetKeys(d, Column(p, 0), row[0], value(row));
          Ok(Set(d, row[0], value(row)))
  }

  /** Last write wins: the value stored under a key is the one built from the
      last row carrying that key. */
  lemma {:induction false} LastWriteWins<V>(rows: seq<Row>, arity: nat, value: Row -> V, file: string, i: nat)
    requires arity >= 1 && HasArity(rows, arity)
    requires i < |rows|
    requires forall j :: i < j < |rows| ==> Field(rows[j], 0) != Field(rows[i], 0)
    ensures Field(rows[i], 0) in LoadLastWins(rows, arity, value, file).value.values
    ensures LoadLastWins(rows, arity, value, file).value.values[Field(rows[i], 0)] == value(rows[i])
  {
    var p := rows[..|rows| - 1];
    PrefixFacts(rows, arity, 0);
    if i < |rows| - 1 {
      assert LoadLastWins(p, arity, value, file).Ok?;
      forall j | i < j < |p| ensures Field(p[j], 0) != Field(p[i], 0) {
        assert p[j] == rows[j];
      }
      LastWriteWins(p, arity, value, file, i);
      assert p[i] == rows[i];
      assert Field(rows[|rows| - 1], 0) != Field(rows[i], 0);
    }
  }

  /** Loading depends on each row only through its length check, its key and
      the value built from it. */
  lemma {:induction false} LoadCongruent<V>(rows: seq<Row>, rows': seq<Row>, arity: nat, value: Row -> V, file: string)
    requires arity >= 1 && |rows| == |rows'|
    requires forall i :: 0 <= i < |rows| ==> (|rows[i]| >= arity <==> |rows'[i]| >= arity)
    requires forall i :: 0 <= i < |rows| ==> Field(rows[i], 0) == Field(rows'[i], 0)
    requires forall i :: 0 <= i < |rows| && |rows[i]| >= arity ==> value(rows[i]) == value(rows'[i])
    ensures LoadLastWins(rows, arity, value, file) == LoadLastWins(rows', arity, value, file)
  {
    if |rows| > 0 {
      var n := |rows| - 1;
      LoadCongruent(rows[..n], rows'[..n], arity, value, file);
      assert rows[n] == rows[..n + 1][n];
    }
  }

  /** One class-file row: subject name, teacher id, section. */
  datatype ClassRecord = ClassRecord(subject: string, teacher: string, section: string)

  function ClassOf(row: Row): ClassRecord {
    ClassRecord(Field(row, 1), Field(row, 2), Field(row, 3))
  }

  function SecondField(row: Row): string {
    Field(row, 1)
  }

  /** The class file: code -> record, lines of four fields. */
  function LoadClasses(rows: seq<Row>, file: string): Result<Dict<ClassRecord>> {
    LoadLastWins(rows, 4, ClassOf, file)
  }

  /** The user (student) directory and the course registry: code -> field 1. */
  function LoadPairs(rows: seq<Row>, file: string): Result<Dict<string>> {
    LoadLastWins(rows, 2, SecondField, file)
  }

  /** The users holding an enrollment row for class `k`, in file order. */
  function MembersOf(rows: seq<Row>, k: string): (r: seq<string>)
    ensures r == [] <==> k !in Column(rows, 0)
  {
    if |rows| == 0 then []
    else
      PrefixFacts(rows, 0, 0);
      MembersOf(rows[..|rows| - 1], k)
        + (if Field(rows[|rows| - 1], 0) == k then [Field(rows[|rows| - 1], 1)] else [])
  }

  /** The enrollment loop `d.setdefault(line[0], []).append(line[1])`. */
  function GroupRows(rows: seq<Row>, file: string): (r: Result<Dict<seq<string>>>)
    ensures r.Ok? <==> HasArity(rows, 2)
    ensures r.Err? ==> FirstShortRow(rows, 2, file, r.failure)
    ensures r.Ok? ==> Valid(r.value) && r.value.keys == Dedup(Column(rows, 0))
    ensures r.Ok? ==> forall k :: k in r.value.values ==> r.value.values[k] == MembersOf(rows, k)
    decreases |rows|
  {
    if |rows| == 0 then Ok(Empty())
    else
      var p := rows[..|rows| - 1];
      var row := rows[|rows| - 1];
      PrefixFacts(rows, 2, 0);
      match GroupRows(p, file)
      case Err(f) =>
        ShortRowExtends(rows, 2, file, f);
        Err(f)
      case Ok(d) =>
        if |row| < 2 then
          assert rows[..|rows| - 1] == p;
          Err(ShortLine(file, |rows| - 1))
        else
          var users := (if row[0] in d.values then d.values[row[0]] else []) + [row[1]];
          assert Field(row, 0) == row[0];
          SetKeys(d, Column(p, 0), row[0], users);
          GroupStep(rows, d.values);
          Ok(Set(d, row[0], users))
  }

  /** Appending one row's user to its class's list keeps every list equal to
      that class's members. */
  lemma GroupStep(rows: seq<Row>, m: map<string, seq<string>>)
    requires |rows| > 0 && |rows[|rows| - 1]| >= 2
    requires forall k :: k in m <==> k in Column(rows[..|rows| - 1], 0)
    requires forall k :: k in m ==> m[k] == MembersOf(rows[..|rows| - 1], k)
    ensures var row := rows[|rows| - 1];
      var m' := m[row[0] := (if row[0] in m then m[row[0]] else []) + [row[1]]];
      forall k :: k in m' ==> m'[k] == MembersOf(rows, k)
  {
    var p := rows[..|rows| - 1];
    var row := rows[|rows| - 1];
    var m' := m[row[0] := (if row[0] in m then m[row[0]] else []) + [row[1]]];
    assert Field(row, 0) == row[0] && Field(row, 1) == row[1];
    forall k | k in m' ensures m'[k] == MembersOf(rows, k) {
      assert MembersOf(rows, k) == MembersOf(p, k) + (if row[0] == k then [row[1]] else []);
      if k != row[0] {
        assert m'[k] == m[k];
      } else if row[0] !in m {
        assert MembersOf(p, k) == [];
      }
    }
  }

  /** Total number of users listed under `keys`. */
  function SumLengths(keys: seq<string>, m: map<string, seq<string>>): nat
    requires forall k :: k in keys ==> k in m
  {
    if |keys| == 0 then 0
    else SumLengths(keys[..|keys| - 1], m) + |m[keys[|keys| - 1]]|
  }

  lemma {:induction false} SumLengthsFrame(keys: seq<string>, m: map<string, seq<string>>, m': map<string, seq<string>>)
    requires forall k :: k in keys ==> k in m && k in m' && |m[k]| == |m'[k]|
    ensures SumLengths(keys, m) == SumLengths(keys, m')
  {
    if |keys| > 0 {
      SumLengthsFrame(keys[..|keys| - 1], m, m');
    }
  }

  lemma {:induction false} SumLengthsBump(keys: seq<string>, m: map<string, seq<string>>, k: string, u: string)
    requires Distinct(keys) && k in keys
    requires forall x :: x in keys ==> x in m
    ensures SumLengths(keys, m[k := m[k] + [u]]) == SumLengths(keys, m) + 1
  {
    var p := keys[..|keys| - 1];
    var m' := m[k := m[k] + [u]];
    if keys[|keys| - 1] == k {
      assert forall j :: 0 <= j < |p| ==> p[j] == keys[j] != keys[|keys| - 1];
      SumLengthsFrame(p, m, m');
    } else {
      assert k in p by {
        var j :| 0 <= j < |keys| && keys[j] == k;
        assert j < |keys| - 1;
        assert p[j] == k;
      }
      SumLengthsBump(p, m, k, u);
    }
  }

  /** Grouping loses and invents no row: the lists hold exactly as many
      entries, duplicates included, as the file has lines. */
  lemma {:induction false} GroupKeepsEveryRow(rows: seq<Row>, file: string)
    requires HasArity(rows, 2)
    ensures GroupRows(rows, file).Ok?
    ensures SumLengths(GroupRows(rows, file).value.keys, GroupRows(rows, file).value.values) == |rows|
  {
    if |rows| > 0 {
      var p := rows[..|rows| - 1];
      var row := rows[|rows| - 1];
      PrefixFacts(rows, 2, 0);
      GroupKeepsEveryRow(p, file);
      var d := GroupRows(p, file).value;
      var d' := GroupRows(rows, file).value;
      if row[0] in d.values {
        assert d'.keys == d.keys;
        SumLengthsBump(d.keys, d.values, row[0], row[1]);
      } else {
        assert d'.keys == d.keys + [row[0]];
        assert (d.keys + [row[0]])[..|d.keys|] == d.keys;
        SumLengthsFrame(d.keys, d.values, d'.values);
      }
    }
  }

  /** Keeping only the first two fields of every registry row changes
      nothing: the name, owner and enrollment-code columns are ignored. */
  lemma RegistryIgnoresExtraColumns(rows: seq<Row>, file: string)
    ensures LoadPairs(rows, file) == LoadPairs(Truncate(rows, 2), file)
  {
    LoadCongruent(rows, Truncate(rows, 2), 2, SecondField, file);
  }

  /** Every row cut down to at most `n` fields. */
  function Truncate(rows: seq<Row>, n: nat): (r: seq<Row>)
    ensures |r| == |rows|
  {
    seq(|rows|, i requires 0 <= i < |rows| => if |rows[i]| <= n then rows[i] else rows[i][..n])
  }

  /** The four tables `readData` builds. The three parallel class dicts of
      the scripts always share their keys, so they are one dict here. */
  datatype Tables = Tables(
    classes: Dict<ClassRecord>,
    emails: Dict<string>,
    enroll: Dict<seq<string>>,
    registry: Dict<string>)

  datatype FileNames = FileNames(classFile: string, userFile: string, enrollFile: string, registryFile: string)

  const RegistryFile := "coursesID.csv"

  /** The file names `readData` opens: the class and enrollment files may be
      overridden on the command line; the user file differs per script. */
  function Names(classFile: Option<string>, enrollFile: Option<string>, userFile: string): FileNames {
    FileNames(classFile.GetOr("classes.csv"), userFile, enrollFile.GetOr("enrollments.csv"), RegistryFile)
  }

  function Rows(lines: seq<string>): (r: seq<Row>)
    ensures |r| == |lines|
  {
    seq(|lines|, i requires 0 <= i < |lines| => Csv.Fields(lines[i]))
  }

  /** The rows of `file`, or FileMissing. */
  function Open(fs: string -> Option<seq<string>>, file: string): Result<seq<Row>> {
    match fs(file)
    case None => Err(FileMissing(file))
    case Some(lines) => Ok(Rows(lines))
  }

  /** `file` opens and every line has the `arity` fields its loader reads. */
  predicate Loads(fs: string -> Option<seq<string>>, file: string, arity: nat) {
    fs(file).Some? && HasArity(Rows(fs(file).value), arity)
  }

  /** `f` is how loading `file` fails: it is missing, or `f` is the IndexError
      of its first short line. */
  predicate LoadFailure(fs: string -> Option<seq<string>>, file: string, arity: nat, f: Failure) {
    match fs(file)
    case None => f == FileMissing(file)
    case Some(lines) => FirstShortRow(Rows(lines), arity, file, f)
  }

  /** Every file opens and every line has the fields its loader reads. */
  predicate Readable(names: FileNames, fs: string -> Option<seq<string>>) {
    && Loads(fs, names.classFile, 4)
    && Loads(fs, names.userFile, 2)
    && Loads(fs, names.enrollFile, 2)
    && Loads(fs, names.registryFile, 2)
  }

  /** `readData`: the class file, the user directory, the enrollment file and
      the registry, read in that order; the first failure ends the run. */
  function ReadData(names: FileNames, fs: string -> Option<seq<string>>): (r: Result<Tables>)
    ensures r.Ok? <==> Readable(names, fs)
    ensures !Loads(fs, names.classFile, 4) ==>
      r.Err? && LoadFailure(fs, names.classFile, 4, r.failure)
    ensures Loads(fs, names.classFile, 4) && !Loads(fs, names.userFile, 2) ==>
      r.Err? && LoadFailure(fs, names.userFile, 2, r.failure)
    ensures Loads(fs, names.classFile, 4) && Loads(fs, names.userFile, 2) && !Loads(fs, names.enrollFile, 2) ==>
      r.Err? && LoadFailure(fs, names.enrollFile, 2, r.failure)
    ensures Loads(fs, names.classFile, 4) && Loads(fs, names.userFile, 2) && Loads(fs, names.enrollFile, 2)
            && !Loads(fs, names.registryFile, 2) ==>
      r.Err? && LoadFailure(fs, names.registryFile, 2, r.failure)
    ensures r.Ok? ==>
      && Valid(r.value.classes) && Valid(r.value.emails) && Valid(r.value.enroll) && Valid(r.value.registry)
      && r.value.classes.keys == Dedup(Column(Rows(fs(names.classFile).value), 0))
      && r.value.emails.keys == Dedup(Column(Rows(fs(names.userFile).value), 0))
      && r.value.enroll.keys == Dedup(Column(Rows(fs(names.enrollFile).value), 0))
      && r.value.registry.keys == Dedup(Column(Rows(fs(names.registryFile).value), 0))
    ensures r.Ok? ==> forall k :: k in r.value.enroll.values ==>
      r.value.enroll.values[k] == MembersOf(Rows(fs(names.enrollFile).value), k)
  {
    var classRows :- Open(fs, names.classFile);
    var classes :- LoadClasses(classRows, names.classFile);
    var userRows :- Open(fs, names.userFile);
    var emails :- LoadPairs(userRows, names.userFile);
    var enrollRows :- Open(fs, names.enrollFile);
    var enroll :- GroupRows(enrollRows, names.enrollFile);
    var registryRows :- Open(fs, names.registryFile);
    var registry :- LoadPairs(registryRows, names.registryFile);
    Ok(Tables(classes, emails, enroll, registry))
  }

  /** No later row of `rows` carries the key of row `i`. */
  predicate LastOf(rows: seq<Row>, i: nat)
    requires i < |rows|
  {
    forall j :: i < j < |rows| ==> Field(rows[j], 0) != Field(rows[i], 0)
  }

  /** The class, user and registry tables hold, under each key, the value
      built from the last line of their file carrying that key. */
  lemma ReadDataLastWins(names: FileNames, fs: string -> Option<seq<string>>)
    requires Readable(names, fs)
    ensures var t := ReadData(names, fs).value;
      var rows := Rows(fs(names.classFile).value);
      forall i :: 0 <= i < |rows| && LastOf(rows, i) ==>
        Field(rows[i], 0) in t.classes.values && t.classes.values[Field(rows[i], 0)] == ClassOf(rows[i])
    ensures var t := ReadData(names, fs).value;
      var rows := Rows(fs(names.userFile).value);
      forall i :: 0 <= i < |rows| && LastOf(rows, i) ==>
        Field(rows[i], 0) in t.emails.values && t.emails.values[Field(rows[i], 0)] == Field(rows[i], 1)
    ensures var t := ReadData(names, fs).value;
      var rows := Rows(fs(names.registryFile).value);
      forall i :: 0 <= i < |rows| && LastOf(rows, i) ==>
        Field(rows[i], 0) in t.registry.values && t.registry.values[Field(rows[i], 0)] == Field(rows[i], 1)
  {
    var classRows := Rows(fs(names.classFile).value);
    var userRows := Rows(fs(names.userFile).value);
    var registryRows := Rows(fs(names.registryFile).value);
    forall i | 0 <= i < |classRows| && LastOf(classRows, i) {
      LastWriteWins(classRows, 4, ClassOf, names.classFile, i);
    }
    forall i | 0 <= i < |userRows| && LastOf(userRows, i) {
      LastWriteWins(userRows, 2, SecondField, names.userFile, i);
    }
    forall i | 0 <= i < |registryRows| && LastOf(registryRows, i) {
      LastWriteWins(registryRows, 2, SecondField, names.registryFile, i);
    }
  }
}
